=== FILE: README.md ===
# Trade-paragraph parser: a verified model

This project models the deterministic core of `trade_graph_builder.py`. That core turns
historical trade paragraphs into team-indexed trade records:

- **Clause preprocessor** (`preprocess_trade_text`). Removes parentheticals and splits on
  `;`. Drops the "In a N-team trade," preamble and any sentence mentioning a trade
  exception. Cuts at "conditional" and at the line-89 pattern, keeps clauses longer than
  ten characters, and trims trailing periods.
- **Team-name normaliser** (`normalize_team_name`). A 36-entry table keyed on the
  lower-cased, trimmed name. Any other name falls back to the first three characters of
  the upper-cased raw name.
- **Step 1** (`parse_trade_step1`). Each clause goes to the extraction service, whose
  reply must pass the schema. Candidates are then repaired: the kind synonym is fixed,
  pick years are cut to their first four-digit run, and picks without round 1 or 2 are
  dropped. Team names are normalised, and a pick without an owner gets the sender.
- **Step 2** (`aggregate_transfers`, `validate_trade`). The transfers are folded into one
  entry per team, in ascending name order, with `sent` and `acquired` lists. A trade is
  accepted when some team moved something.
- **Per paragraph** (`is_actual_trade`, `parse_trade`). The "traded" filter, and the chain
  of both steps, in which every failure becomes `None`.
- **Driver** (`parse_trade_htmls`). Loops over the four fixed year ranges with range and
  year checkpoints. It is a pure step function over a store of checkpoints.

Modules, one per file:

| file | module | contents |
|---|---|---|
| results.dfy | `Results` | `Option`, `Result` |
| strings.dfy | `Strings` | ASCII `isspace`, `lower`, `upper`, `strip`, `rstrip('.')`, `split`, `join`, substring test |
| words.dfy | `Words` | case-insensitive, word-bounded search (`re.search` with `\b` and `IGNORECASE`) |
| preprocess.dfy | `Preprocess` | `preprocess_trade_text` |
| team_names.dfy | `TeamNames` | `normalize_team_name` |
| trade_types.dfy | `TradeTypes` | the records of lines 29-69 |
| extraction.dfy | `Extraction` | the validation, repair and normalisation of step 1 |
| string_order.dfy | `StringOrder` | Python's `str` ordering, sorted insertion |
| aggregation.dfy | `Aggregation` | `aggregate_transfers`, `validate_trade` |
| pipeline.dfy | `Pipeline` | `is_actual_trade`, `parse_trade` |
| checkpoints.dfy | `Checkpoints` | `parse_trade_htmls` |
| scenarios.dfy | `Scenarios` | the worked examples of the extraction prompt |

Behaviours of the code that the model reproduces on purpose:

- The preamble pattern of line 80 removes "In a ", a run of digits, "-team trade", an
  optional comma and the whitespace after it, and nothing else. It needs a digit right
  after "In a ", so a clause that starts "In an ..." is left as it is.
- Line 96 tests `len(c) > 10` before it trims trailing periods. Ten characters and a final
  period are kept and come back ten characters long. A clause of exactly ten characters
  is dropped.
- The second cut uses the pattern `\trade exception\b`. In a regular expression `\t` is a
  TAB, so the pattern is TAB + "rade exception" with only a trailing word boundary. Its
  position is found on the rejoined clause but applied to the clause already cut at
  "conditional", where Python's slice clamps.
- A pick whose year is missing or empty is not dropped by the repair pass. A missing year
  then fails the `Pick` constructor and the whole paragraph yields `None`. An empty year
  is kept as `""`. Pick years are therefore not always four digits.
- A year with no archived page contributes `[]` to its range, but no year checkpoint is
  written for it.

## Model

| member | source | states |
|---|---|---|
| Preprocess.StripParens | trade_graph_builder.py:74 | No `(` in the result is followed anywhere later by `)`, and a `)` survives only if the text had one |
| Preprocess.StripParensKeepsPrefix | trade_graph_builder.py:74 | Text before the first `(` is kept unchanged, and the rest is processed on its own |
| Preprocess.StripParensDropsSpan | trade_graph_builder.py:74 | A `(`, everything up to the first `)` after it, and that `)` are deleted, and nothing else is touched |
| Preprocess.StripParensOneSpan | trade_graph_builder.py:74 | Text with one parenthetical and no other `(` loses exactly that span, so "a (b) c" becomes "a  c" |
| Preprocess.StripParensDeletes | trade_graph_builder.py:74 | Removing parentheticals only deletes characters: every character occurs at most as often as in the text |
| Preprocess.StripParensIdempotent | trade_graph_builder.py:74 | Removing parentheticals a second time changes nothing |
| Preprocess.SegmentsCount | trade_graph_builder.py:76-77 | There is one stripped segment per `;` left after line 74, plus one |
| Preprocess.PreambleLength | trade_graph_builder.py:79-80 | The preamble cut is at most the clause's length. When it is non-zero, the clause starts with "In a " and a digit, and the cut spans at least 17 characters |
| Preprocess.PreambleRemoved | trade_graph_builder.py:80 | A clause made of "In a ", digits, "-team trade", an optional comma, whitespace and a rest that does not start with whitespace loses exactly that prefix and keeps the rest |
| Preprocess.NoPreambleForAn | trade_graph_builder.py:80 | A clause starting "In an " keeps its start: the pattern needs a digit after "In a " |
| Preprocess.PreambleShape | trade_graph_builder.py:80 | A prefix is cut exactly when the clause starts "In a ", then a run of digits, then "-team trade"; every other clause, such as "In a 3-way deal, ...", is left whole |
| Preprocess.CleanSentences | trade_graph_builder.py:85-86 | At most one sentence per part. Each kept sentence is non-empty, does not start with whitespace, and has no word-bounded "trade exception" in any case. Dot-free parts give dot-free sentences |
| Preprocess.CleanSentencesOne | trade_graph_builder.py:85 | One part gives its stripped self exactly when that is non-empty and has no word-bounded "trade exception"; otherwise it gives nothing |
| Preprocess.CleanSentencesAppend | trade_graph_builder.py:85 | The sentence cleaning distributes over concatenation, so surviving parts keep their order |
| Preprocess.CleanSentencesKeeps | trade_graph_builder.py:85 | Every part that is non-blank and free of the phrase appears, stripped, among the sentences |
| Preprocess.RejoinedSound | trade_graph_builder.py:85-87 | Rejoining with ". " keeps parentheses ordered, leaves no "trade exception", and starts with a non-space |
| Preprocess.ConditionalCutSound | trade_graph_builder.py:88-91 | The cut clause is a prefix of the clause with ordered parentheses, and it contains no word-bounded "conditional" and no "trade exception" |
| Preprocess.ConditionalCutAt | trade_graph_builder.py:88-91 | A clause without the word "conditional" is unchanged. Otherwise the cut falls at the first word-bounded, case-insensitive hit, and the part before it is stripped |
| Preprocess.TabCutSound | trade_graph_builder.py:89-93 | Whatever the TAB-pattern cut removes, the result still has ordered parentheses and neither "conditional" nor "trade exception" |
| Preprocess.NoTabNoCut | trade_graph_builder.py:89-93 | Without a TAB in the clause the line-93 cut never happens, so an ordinary "trade exception" inside a kept sentence never triggers it |
| Preprocess.TabCutAt | trade_graph_builder.py:89-93 | When the TAB pattern occurs in the rejoined clause, the cut clause is cut at its first occurrence, clamped to the cut clause's length, and stripped |
| Preprocess.TabCutAfter | trade_graph_builder.py:89-93 | Text with no TAB, followed by TAB and "rade exception" and then a non-word character or nothing, is cut back to that text, stripped |
| Preprocess.TabCutExample | trade_graph_builder.py:89-93 | "abc", TAB, "rade exception x" becomes "abc" |
| Preprocess.CleanClauseSound | trade_graph_builder.py:84-94 | Every cleaned clause has ordered parentheses, no word-bounded "conditional" and no "trade exception" |
| Preprocess.Finish | trade_graph_builder.py:96 | Each returned clause is the dot-trimmed form of some clause that was longer than ten characters before trimming |
| Preprocess.FinishOne | trade_graph_builder.py:96 | One clause is kept, trimmed of trailing periods, exactly when it is longer than ten characters |
| Preprocess.FinishAppend | trade_graph_builder.py:96 | The length filter distributes over concatenation, so kept clauses keep their order |
| Preprocess.FinishKeeps | trade_graph_builder.py:96 | Every clause longer than ten characters is among the results, trimmed |
| Preprocess.FilterBeforeTrim | trade_graph_builder.py:96 | Eleven characters ending in one period are kept and come back ten characters long: the length is tested before trimming |
| Preprocess.Clauses | trade_graph_builder.py:71-98 | At most one clause per `;` plus one. Each clause is the trimmed form of a cleaned segment longer than ten characters, has no `(` before a `)`, no word-bounded "conditional" or "trade exception" in any case, and no trailing period. Every cleaned segment longer than ten characters appears, trimmed |
| Preprocess.BarePeriodGrows | trade_graph_builder.py:85-87 | Two plain sentences joined by a bare `.` come back as one clause joined by ". ", one character longer than the paragraph |
| Strings.SplitJoin | trade_graph_builder.py:77 | `split` and `join` on the same one-character separator are inverse |
| Strings.SplitCount | trade_graph_builder.py:77 | `split` on a one-character separator yields one part more than the separator's occurrences |
| Words.Find | trade_graph_builder.py:86-89 | `re.search` gives the leftmost hit at or after the start, or proves there is none |
| Words.FindNoneIsFree | trade_graph_builder.py:86 | A search that finds nothing means the text has no word-bounded occurrence at all |
| TeamNames.TableCode | trade_graph_builder.py:228-266 | A table hit is a key longer than three characters mapped to a three-letter upper-case code |
| TeamNames.Normalize | trade_graph_builder.py:226-269 | The result is at most three characters with no lower-case letter, and is empty exactly when the name is |
| TeamNames.NormalizeCases | trade_graph_builder.py:268-269 | A hit returns the table's code. A miss returns the upper-cased first `min(3, len)` characters of the raw name |
| TeamNames.NormalizeIdempotent | trade_graph_builder.py:226-269 | Normalising a code again returns it unchanged |
| TeamNames.SeattleIsOklahomaCity | trade_graph_builder.py:255 | "seattle supersonics", after lower-casing and trimming, maps to OKC |
| TeamNames.NewJerseyIsBrooklyn | trade_graph_builder.py:233 | "new jersey nets" maps to BKN |
| TeamNames.HornetsInterimIsNewOrleans | trade_graph_builder.py:252 | "new orleans/oklahoma city hornets" maps to NOP |
| Extraction.ValidateAppend | trade_graph_builder.py:176 | A reply is accepted exactly when each of its parts would be, and is then returned whole: one candidate outside the schema condemns the reply |
| Extraction.FirstFourDigits | trade_graph_builder.py:194 | `re.search(r'(\d{4})')` finds the leftmost run of four digits, or proves there is none |
| Extraction.RepairKeepsIff | trade_graph_builder.py:180-206 | A candidate is kept exactly when its kind, after the synonym fix, is one of the three. A pick must also have four digits somewhere in any non-empty year, and a round of 1 or 2 |
| Extraction.RepairChanges | trade_graph_builder.py:182-204 | A kept candidate changes only in its kind synonym and, for a pick with a non-empty year, in the year, which becomes its first four-digit run |
| Extraction.Repair | trade_graph_builder.py:180-206 | A kept candidate has one of the three kinds. A kept pick has round 1 or 2 and a year that is absent, empty or exactly four digits |
| Extraction.ValidatedRepair | trade_graph_builder.py:176-206 | After validation the `draft_pick` fix and the invalid-kind skip never fire. Only a pick's year or missing round can drop it |
| Extraction.RepairAllSound | trade_graph_builder.py:179-206 | Every kept candidate has a valid kind. Every kept pick has round 1 or 2 and a year that is absent, empty or four digits |
| Extraction.RepairAllAppend | trade_graph_builder.py:179-206 | The repair pass is an order-preserving filter: it distributes over concatenation |
| Extraction.RepairAllOne | trade_graph_builder.py:179-206 | A single candidate survives the pass exactly when it is repaired and kept, and then in its repaired form. With RepairAllAppend this makes the pass an order-preserving filter-and-repair |
| Extraction.RepairAllKeeps | trade_graph_builder.py:179-206 | Every candidate that repair keeps appears, repaired, in the pass's output |
| Extraction.NormalizeAll | trade_graph_builder.py:210-218 | One transfer per input, in order. Every side and every owner present is a normaliser result (at most three characters, no lower case, possibly empty), and every pick has an owner |
| Extraction.NormalizeAllIdempotent | trade_graph_builder.py:210-218 | Normalising a normalised clause changes nothing |
| Extraction.NormalizeTransfer | trade_graph_builder.py:211-218 | Every side and owner present is a normaliser result (at most three characters, no lower case, possibly empty), and a pick always has an owner |
| Extraction.NormalizeTransferSound | trade_graph_builder.py:210-218 | Only team fields change. Both sides and a non-empty owner go through the normaliser. A pick with no or an empty owner gets the normalised sender. Any other asset keeps its absent or empty owner |
| Extraction.NormalizeTransferIdempotent | trade_graph_builder.py:210-218 | Normalising a normalised transfer changes nothing |
| Extraction.ExtractClausesAppend | trade_graph_builder.py:155-223 | Transfers are concatenated in clause order. The first failing clause's error wins |
| Extraction.ExtractClausesOutcome | trade_graph_builder.py:155-223 | Step 1 succeeds exactly when every clause does. Otherwise it reports the error of the first clause that failed |
| Extraction.ParseStep1 | trade_graph_builder.py:145-223 | Every transfer of a successful step 1 is canonical: a valid kind, and team fields of at most three characters with no lower case. A pick also has an owner, round 1 or 2, and a year that is absent, empty or four digits |
| StringOrder.BelowTransitive | trade_graph_builder.py:308 | Python's string order is transitive |
| StringOrder.BelowTotal | trade_graph_builder.py:308 | Python's string order relates any two different strings |
| StringOrder.Insert | trade_graph_builder.py:308 | Adding a name to a strictly ascending list keeps it strictly ascending, with exactly the old names plus the new one |
| StringOrder.SortedUniqueList | trade_graph_builder.py:308 | Two strictly ascending lists with the same elements are equal |
| Aggregation.Roster | trade_graph_builder.py:276-308 | The team list is strictly ascending and holds exactly the names on either side of some transfer |
| Aggregation.FoldOk | trade_graph_builder.py:278-300 | The loop succeeds exactly when every asset's constructor succeeds |
| Aggregation.FoldSent | trade_graph_builder.py:286-299 | Each team's `sent` list is its outgoing assets in transfer order |
| Aggregation.FoldAcquired | trade_graph_builder.py:286-300 | Each team's `acquired` list is its incoming assets in transfer order |
| Aggregation.MaterialiseSpec | trade_graph_builder.py:286-297 | Building fails exactly for a player without a name or a pick without a year or round. A kind outside the three is skipped. A built pick keeps year and round, and its owner is its own non-empty owner, otherwise the sender |
| Aggregation.CashAmountDropped | trade_graph_builder.py:288-289 | The amount a cash transfer names has no effect on what is built |
| Aggregation.Aggregate | trade_graph_builder.py:272-315 | Success exactly when all assets build. Then there is one entry per party, strictly ascending. `num_teams` equals the number of parties and the list length, and `is_multi_team` means more than two. Each `sent`/`acquired` list equals the reference definition (the team's outgoing or incoming assets in transfer order) |
| Aggregation.ValidateAggregate | trade_graph_builder.py:318-326 | `validate_trade` accepts an aggregated trade exactly when some transfer carried an asset |
| Aggregation.ValidateAggregateNonEmpty | trade_graph_builder.py:286-326 | For transfers of valid kinds, a successful aggregation validates exactly when the list is non-empty |
| Aggregation.TeamOrderCanonical | trade_graph_builder.py:302-309 | The team order depends only on which teams take part |
| Pipeline.IsActualTrade | trade_graph_builder.py:329-331 | The filter holds exactly when "traded" occurs at some position, compared without regard to letter case |
| Pipeline.IsActualTradeIgnoresCase | trade_graph_builder.py:329-331 | Upper-casing a paragraph does not change the filter's answer |
| Pipeline.ParseTradeAccepts | trade_graph_builder.py:334-358 | A trade is returned exactly when step 1 succeeds with at least one transfer and every asset can be built. The trade is their aggregation |
| Pipeline.ParseTrade | trade_graph_builder.py:334-358 | A returned trade is active and strictly sorted by team. Its counts agree, every team code is canonical, and every pick has round 1 or 2, a canonical owner, and an empty or four-digit year |
| Pipeline.OwnerFallbackAgrees | trade_graph_builder.py:290-294 | After normalisation the sender fallback of line 294 never changes anything: a pick with year and round is built with the owner normalisation wrote, the normalised sender when the reply named none |
| Pipeline.PickWithoutYearRejected | trade_graph_builder.py:291-295 | A pick whose year is missing survives repair but makes the whole paragraph yield nothing |
| Checkpoints.ParsePage | trade_graph_builder.py:413-423 | No more trades than parse calls, and no more calls than paragraphs |
| Checkpoints.ParsePageAppend | trade_graph_builder.py:413-423 | Paragraphs are processed independently and in order. A failing one costs only itself |
| Checkpoints.ParsePageSound | trade_graph_builder.py:413-423 | Exactly the paragraphs mentioning "traded" are parsed, and each kept trade is one of their results |
| Checkpoints.ParsePageOne | trade_graph_builder.py:413-423 | One paragraph costs a call exactly when it mentions "traded", and contributes its trade exactly when it also parses |
| Checkpoints.ParsePageKeeps | trade_graph_builder.py:413-423 | Every trade parsed from a paragraph that mentions "traded" is kept |
| Checkpoints.ProcessYear | trade_graph_builder.py:393-429 | One year: its outcome is recorded in `range_trades`. A year checkpoint is added only for a year with a page and none, nothing is overwritten, and a loaded or missing year costs no call |
| Checkpoints.ProcessYearsSpec | trade_graph_builder.py:391-429 | Each year of a range gets its existing checkpoint, `[]` when its page is missing, or its parsed trades. A year checkpoint is written only for a parsed page, and nothing is overwritten |
| Checkpoints.ProcessYearsIdle | trade_graph_builder.py:393-401 | Years that all have checkpoints are loaded without a single parse call |
| Checkpoints.ProcessRange | trade_graph_builder.py:375-435 | An existing range checkpoint is merged with no calls and no writes. Otherwise a range checkpoint with exactly the range's years, each with its outcome, is written and merged |
| Checkpoints.RunSpec | trade_graph_builder.py:366-435 | After a run every range has a checkpoint, and no earlier checkpoint has changed. `all_trades` is the in-order merge of the range checkpoints |
| Checkpoints.RunIdle | trade_graph_builder.py:384-389 | With every range checkpointed, a run makes no call and writes nothing |
| Checkpoints.SecondRunIdle | trade_graph_builder.py:361-448 | Re-running on the store a run left makes zero parse calls, writes nothing, and yields the same year-to-trades map |
| Checkpoints.ParseTradeHtmls | trade_graph_builder.py:361-448 | After the driver all four ranges are checkpointed, no earlier checkpoint has changed, and `all_trades` is the in-order merge of the range checkpoints |
| Checkpoints.RunGood | trade_graph_builder.py:375-435 | Well-formed checkpoints and a parser returning only well-formed trades give well-formed checkpoints and results |
| Checkpoints.DriverStoresWellFormed | trade_graph_builder.py:361-448 | With the real `parse_trade`, everything the driver stores or returns is a well-formed trade |
| Checkpoints.FixedRangesCover | trade_graph_builder.py:368-373 | The four ranges are contiguous and cover 2004 to 2024, ending in 2008, 2014, 2019 and 2024 |
| Checkpoints.YearsAppend | trade_graph_builder.py:368-373 | Two adjacent `range`s list, one after the other, exactly the years of the range spanning both |
| Scenarios.NunnForHachimuraAggregates | trade_graph_builder.py:131-133 | The LAL/WAS player swap gives each team one player sent and the other acquired |
| Scenarios.NunnNormalised | trade_graph_builder.py:131-133 | The reply's "Los Angeles Lakers" to "Washington Wizards" becomes LAL to WAS, the player unchanged |
| Scenarios.PickForCashAggregates | trade_graph_builder.py:135-137 | DET's 2025 second-round pick goes to NYK for cash. The cash entry has no amount |
| Scenarios.LakersPickAggregates | trade_graph_builder.py:139-140 | A pick owned by LAL passes from MIA to BOS with its owner, and BOS sorts first |
| Scenarios.SelfTransfer | trade_graph_builder.py:299-300 | A transfer from a team to itself lists the asset as both sent and acquired by that team |
| Scenarios.YearRewritten | trade_graph_builder.py:192-196 | The year "2025-26" becomes "2025" |
| Scenarios.YearlessPicks | trade_graph_builder.py:191-204 | A year without four digits drops the pick. A missing year does not |
| Scenarios.DraftPickRejected | trade_graph_builder.py:176-182 | A `draft_pick` candidate fails validation, so it never reaches the repair at line 182 |

## Left out

- The extraction service call (lines 159-174) and its prompt. It is an external,
  nondeterministic service, modelled as an arbitrary function from clause to candidate
  list or failure.
- The `encode('utf-8', errors='ignore').decode('utf-8')` round trip of line 157. It is
  the identity on the well-formed strings the model uses.
- JSON schema generation, JSON text and `model_dump_json` / `json.loads` (lines 176, 354,
  423). These are serialisation. The model passes the records themselves. The JSON
  text-keying of integer year keys in checkpoint files is not modelled.
- HTML reading, BeautifulSoup `<p>` extraction and whitespace collapsing (lines 403-416),
  file existence checks, file writes and logging. These are I/O. The archive is given as
  paragraphs per year, and the checkpoints as a store of maps.
- Writing `trades.json` (lines 442-443). It is modelled as the run's final `all` map.
- Unicode: letter case, `isspace`, `\b`, `\w` and `\d` are restricted to ASCII.
- The other files of the repository (scraper.py, master_csv_creator.py, regression.py,
  sql_processor.py) are not part of this model.
- Aggregation.Materialise: pydantic reports every missing field at once. The model
  reports the first one (name, then year, then round). Only the fact of failure matters
  to `parse_trade`.
- Pipeline.ParseTradeAccepts: the JSON string that `parse_trade` returns is represented by
  the trade record it serialises.

=== FILE: aggregation.dfy ===
/**
 * Step 2 of the trade parser: `aggregate_transfers` folds the directional transfers
 * into one entry per team, and `validate_trade` asks whether any team moved anything
 * (trade_graph_builder.py, lines 272-326).
 */
module Aggregation {
  import opened Results
  import opened TradeTypes
  import opened StringOrder

  /** The required field a `Player(...)` or `Pick(...)` constructor finds missing at
      lines 287 and 291; the model reports the first one in field order. */
  datatype AssetError = MissingPlayerName | MissingPickYear | MissingPickRound

  /** Lines 286-297: the aggregated asset a transfer carries, `None` for a kind outside
      the three (the `continue` of line 297), or the constructor's failure. A pick without
      an owner falls back to the sending team; a cash amount is dropped. */
  function Materialise(t: Transfer): Result<Option<Asset>, AssetError> {
    var a := t.asset;
    if a.kind == PlayerKind then
      if a.name.None? then Err(MissingPlayerName) else Ok(Some(Player(a.name.value)))
    else if a.kind == CashKind then Ok(Some(Cash))
    else if a.kind == PickKind then
      if a.year.None? then Err(MissingPickYear)
      else if a.round.None? then Err(MissingPickRound)
      else Ok(Some(Pick(a.year.value, a.round.value, if Truthy(a.team) then a.team.value else t.fromTeam)))
    else Ok(None)
  }

  predicate Buildable(t: Transfer) {
    Materialise(t).Ok?
  }

  /** A constructor fails exactly when a player has no name or a pick has no year or no
      round; a kind outside the three is skipped; what is built keeps the player's name
      and the pick's year and round, and a pick's owner is its own non-empty owner or
      else the sending team. */
  lemma MaterialiseSpec(t: Transfer)
    ensures Materialise(t).Err? <==>
      || (t.asset.kind == PlayerKind && t.asset.name.None?)
      || (t.asset.kind == PickKind && (t.asset.year.None? || t.asset.round.None?))
    ensures Materialise(t) == Ok(None) <==> !IsAssetKind(t.asset.kind)
    ensures Materialise(t).Ok? && Materialise(t).value.Some? ==>
      match Materialise(t).value.value
      case Player(name) => t.asset.kind == PlayerKind && t.asset.name == Some(name)
      case Cash => t.asset.kind == CashKind
      case Pick(year, round, owner) =>
        && t.asset.kind == PickKind
        && t.asset.year == Some(year) && t.asset.round == Some(round)
        && owner == (if Truthy(t.asset.team) then t.asset.team.value else t.fromTeam)
  {
  }

  /** `Cash` has no amount field: the amount a transfer names never reaches the trade. */
  lemma CashAmountDropped(t: Transfer, amount: Option<string>)
    ensures Materialise(t.(asset := t.asset.(amount := amount))) == Materialise(t)
  {
  }

  /** The asset a transfer moves, as a list of zero or one. */
  function MovedList(t: Transfer): seq<Asset> {
    match Materialise(t)
    case Ok(Some(a)) => [a]
    case _ => []
  }

  // ---------------------------------------------------------------------------
  // Reference definitions: what each team entry should hold
  // ---------------------------------------------------------------------------

  /** Every team named on either side of some transfer. */
  function Parties(ts: seq<Transfer>): set<string>
    decreases |ts|
  {
    if ts == [] then {} else {ts[0].fromTeam, ts[0].toTeam} + Parties(ts[1..])
  }

  /** The assets team `c` gives up, in transfer order. */
  function SentBy(ts: seq<Transfer>, c: string): seq<Asset>
    decreases |ts|
  {
    if ts == [] then []
    else (if ts[0].fromTeam == c then MovedList(ts[0]) else []) + SentBy(ts[1..], c)
  }

  /** The assets team `c` receives, in transfer order. */
  function AcquiredBy(ts: seq<Transfer>, c: string): seq<Asset>
    decreases |ts|
  {
    if ts == [] then []
    else (if ts[0].toTeam == c then MovedList(ts[0]) else []) + AcquiredBy(ts[1..], c)
  }

  // ---------------------------------------------------------------------------
  // The loop of lines 278-300 and the assembly of lines 302-315
  // ---------------------------------------------------------------------------

  /** `team_names` (lines 276, 282-283) as the sorted list that line 308 iterates:
      every name added on either side of every transfer. */
  function Roster(names: seq<string>, ts: seq<Transfer>): (r: seq<string>)
    requires StrictlySorted(names)
    ensures StrictlySorted(r)
    ensures forall y :: y in r <==> y in names || y in Parties(ts)
    decreases |ts|
  {
    if ts == [] then names
    else Roster(Insert(Insert(names, ts[0].fromTeam), ts[0].toTeam), ts[1..])
  }

  /** The `defaultdict` of sent and acquired lists (line 275). */
  datatype Tally = Tally(sent: map<string, seq<Asset>>, acquired: map<string, seq<Asset>>)

  /** A `defaultdict` read: a team never written has empty lists. */
  function Lists(m: map<string, seq<Asset>>, c: string): seq<Asset> {
    if c in m then m[c] else []
  }

  /** One iteration: file the asset under the sender's `sent` and the receiver's
      `acquired`, or skip, or fail in the constructor. */
  function Record(acc: Tally, t: Transfer): Result<Tally, AssetError> {
    match Materialise(t)
    case Err(e) => Err(e)
    case Ok(None) => Ok(acc)
    case Ok(Some(a)) =>
      Ok(Tally(
        acc.sent[t.fromTeam := Lists(acc.sent, t.fromTeam) + [a]],
        acc.acquired[t.toTeam := Lists(acc.acquired, t.toTeam) + [a]]))
  }

  function Fold(acc: Tally, ts: seq<Transfer>): Result<Tally, AssetError>
    decreases |ts|
  {
    if ts == [] then Ok(acc)
    else
      match Record(acc, ts[0])
      case Err(e) => Err(e)
      case Ok(next) => Fold(next, ts[1..])
  }

  /** Lines 302-315: one entry per team in the given order; more than two teams makes
      the trade multi-team. */
  function Assemble(names: seq<string>, acc: Tally): Trade {
    Trade(|names| > 2, |names|,
      seq(|names|, i requires 0 <= i < |names| =>
        TeamEntry(names[i], Lists(acc.sent, names[i]), Lists(acc.acquired, names[i]))))
  }

  /** `aggregate_transfers`; an `Err` is the constructor failure that escapes it. It
      succeeds exactly when every asset can be built, and then tabulates the transfers
      (see `AggregatedFrom`). */
  function Aggregate(ts: seq<Transfer>): (r: Result<Trade, AssetError>)
    ensures r.Ok? <==> forall i :: 0 <= i < |ts| ==> Buildable(ts[i])
    ensures r.Ok? ==> AggregatedFrom(r.value, ts)
  {
    FoldSpec(ts);
    match Fold(Tally(map[], map[]), ts)
    case Err(e) => Err(e)
    case Ok(acc) => Ok(Assemble(Roster([], ts), acc))
  }

  /** `validate_trade`: some team sent or acquired something. */
  predicate HasActivity(trade: Trade) {
    exists i :: 0 <= i < |trade.teams| && (trade.teams[i].sent != [] || trade.teams[i].acquired != [])
  }

  function TeamNamesOf(trade: Trade): seq<string> {
    seq(|trade.teams|, i requires 0 <= i < |trade.teams| => trade.teams[i].team)
  }

  // ---------------------------------------------------------------------------
  // The fold computes the reference definitions
  // ---------------------------------------------------------------------------

  lemma AllBuildableCons(ts: seq<Transfer>)
    requires ts != []
    ensures (forall i :: 0 <= i < |ts| ==> Buildable(ts[i])) <==>
      Buildable(ts[0]) && forall j :: 0 <= j < |ts[1..]| ==> Buildable(ts[1..][j])
  {
    if forall j :: 0 <= j < |ts[1..]| ==> Buildable(ts[1..][j]) {
      forall i | 1 <= i < |ts| ensures Buildable(ts[i]) {
        assert ts[i] == ts[1..][i - 1];
      }
    }
  }

  /** The fold succeeds exactly when every asset can be built. */
  lemma {:induction false} FoldOk(acc: Tally, ts: seq<Transfer>)
    ensures Fold(acc, ts).Ok? <==> forall i :: 0 <= i < |ts| ==> Buildable(ts[i])
    decreases |ts|
  {
    if ts != [] {
      AllBuildableCons(ts);
      if Record(acc, ts[0]).Ok? {
        FoldOk(Record(acc, ts[0]).value, ts[1..]);
      }
    }
  }

  lemma RecordSent(acc: Tally, t: Transfer, c: string)
    requires Record(acc, t).Ok?
    ensures Lists(Record(acc, t).value.sent, c) == Lists(acc.sent, c) + (if t.fromTeam == c then MovedList(t) else [])
  {
  }

  lemma RecordAcquired(acc: Tally, t: Transfer, c: string)
    requires Record(acc, t).Ok?
    ensures Lists(Record(acc, t).value.acquired, c) == Lists(acc.acquired, c) + (if t.toTeam == c then MovedList(t) else [])
  {
  }

  /** A successful fold files under each team exactly its outgoing assets, in order. */
  lemma {:induction false} FoldSent(acc: Tally, ts: seq<Transfer>, c: string)
    requires Fold(acc, ts).Ok?
    ensures Lists(Fold(acc, ts).value.sent, c) == Lists(acc.sent, c) + SentBy(ts, c)
    decreases |ts|
  {
    if ts != [] {
      var t := ts[0];
      var next := Record(acc, t).value;
      FoldSent(next, ts[1..], c);
      RecordSent(acc, t, c);
      var head := if t.fromTeam == c then MovedList(t) else [];
      assert (Lists(acc.sent, c) + head) + SentBy(ts[1..], c) == Lists(acc.sent, c) + (head + SentBy(ts[1..], c));
    }
  }

  /** A successful fold files under each team exactly its incoming assets, in order. */
  lemma {:induction false} FoldAcquired(acc: Tally, ts: seq<Transfer>, c: string)
    requires Fold(acc, ts).Ok?
    ensures Lists(Fold(acc, ts).value.acquired, c) == Lists(acc.acquired, c) + AcquiredBy(ts, c)
    decreases |ts|
  {
    if ts != [] {
      var t := ts[0];
      var next := Record(acc, t).value;
      FoldAcquired(next, ts[1..], c);
      RecordAcquired(acc, t, c);
      var head := if t.toTeam == c then MovedList(t) else [];
      assert (Lists(acc.acquired, c) + head) + AcquiredBy(ts[1..], c) == Lists(acc.acquired, c) + (head + AcquiredBy(ts[1..], c));
    }
  }

  /** The elements of a list, as a set. */
  function Elems(s: seq<string>): set<string> {
    set x | x in s
  }

  /** A strictly sorted list has as many elements as its set. */
  lemma {:induction false} SortedCount(s: seq<string>)
    requires StrictlySorted(s)
    ensures |Elems(s)| == |s|
    decreases |s|
  {
    if s != [] {
      SortedCount(s[1..]);
      assert Elems(s) == {s[0]} + Elems(s[1..]);
      if s[0] in s[1..] {
        var k :| 0 <= k < |s[1..]| && s[1..][k] == s[0];
        SortedUnique(s, 0, k + 1);
      }
    }
  }

  lemma AssembleNames(names: seq<string>, acc: Tally)
    ensures TeamNamesOf(Assemble(names, acc)) == names
  {
  }

  /** The trade has one entry per party, in strictly ascending order; `num_teams` counts
      them and is the length of the list; `is_multi_team` means more than two; and each
      team's `sent` and `acquired` lists are exactly its outgoing and incoming assets in
      input order. */
  ghost predicate AggregatedFrom(trade: Trade, ts: seq<Transfer>) {
    && trade.numTeams == |trade.teams| == |Parties(ts)|
    && (trade.isMultiTeam <==> trade.numTeams > 2)
    && StrictlySorted(TeamNamesOf(trade))
    && (forall y :: y in TeamNamesOf(trade) <==> y in Parties(ts))
    && (forall i :: 0 <= i < |trade.teams| ==>
          trade.teams[i].sent == SentBy(ts, trade.teams[i].team) &&
          trade.teams[i].acquired == AcquiredBy(ts, trade.teams[i].team))
  }

  /** The loop succeeds exactly when every asset can be built, and its tally, assembled
      over the sorted roster, tabulates the transfers. */
  lemma FoldSpec(ts: seq<Transfer>)
    ensures Fold(Tally(map[], map[]), ts).Ok? <==> forall i :: 0 <= i < |ts| ==> Buildable(ts[i])
    ensures Fold(Tally(map[], map[]), ts).Ok? ==>
      AggregatedFrom(Assemble(Roster([], ts), Fold(Tally(map[], map[]), ts).value), ts)
  {
    var acc := Tally(map[], map[]);
    FoldOk(acc, ts);
    if Fold(acc, ts).Ok? {
      var r := Fold(acc, ts).value;
      var names := Roster([], ts);
      AssembleNames(names, r);
      SortedCount(names);
      assert Elems(names) == Parties(ts);
      var trade := Assemble(names, r);
      forall i | 0 <= i < |trade.teams|
        ensures trade.teams[i].sent == SentBy(ts, trade.teams[i].team)
        ensures trade.teams[i].acquired == AcquiredBy(ts, trade.teams[i].team)
      {
        FoldSent(acc, ts, names[i]);
        FoldAcquired(acc, ts, names[i]);
      }
    }
  }

  // ---------------------------------------------------------------------------
  // Validation (lines 318-326)
  // ---------------------------------------------------------------------------

  /** The transfer moves an asset (a buildable transfer of one of the three kinds). */
  predicate Carries(t: Transfer) {
    MovedList(t) != []
  }

  lemma {:induction false} SentByHolds(ts: seq<Transfer>, i: int)
    requires 0 <= i < |ts| && Carries(ts[i])
    ensures SentBy(ts, ts[i].fromTeam) != []
    decreases |ts|
  {
    if i > 0 {
      assert ts[1..][i - 1] == ts[i];
      SentByHolds(ts[1..], i - 1);
    }
  }

  lemma {:induction false} SentByWitness(ts: seq<Transfer>, c: string)
    requires SentBy(ts, c) != []
    ensures exists i :: 0 <= i < |ts| && Carries(ts[i]) && ts[i].fromTeam == c
    decreases |ts|
  {
    if !(ts[0].fromTeam == c && Carries(ts[0])) {
      SentByWitness(ts[1..], c);
      var j :| 0 <= j < |ts[1..]| && Carries(ts[1..][j]) && ts[1..][j].fromTeam == c;
      assert ts[j + 1] == ts[1..][j];
    }
  }

  lemma {:induction false} AcquiredByWitness(ts: seq<Transfer>, c: string)
    requires AcquiredBy(ts, c) != []
    ensures exists i :: 0 <= i < |ts| && Carries(ts[i]) && ts[i].toTeam == c
    decreases |ts|
  {
    if !(ts[0].toTeam == c && Carries(ts[0])) {
      AcquiredByWitness(ts[1..], c);
      var j :| 0 <= j < |ts[1..]| && Carries(ts[1..][j]) && ts[1..][j].toTeam == c;
      assert ts[j + 1] == ts[1..][j];
    }
  }

  lemma {:induction false} PartiesHolds(ts: seq<Transfer>, i: int)
    requires 0 <= i < |ts|
    ensures ts[i].fromTeam in Parties(ts) && ts[i].toTeam in Parties(ts)
    decreases |ts|
  {
    if i > 0 {
      assert ts[1..][i - 1] == ts[i];
      PartiesHolds(ts[1..], i - 1);
    }
  }

  /** The entries of `trade` are the parties of `ts`, each with its reference lists. */
  ghost predicate Tabulates(trade: Trade, ts: seq<Transfer>) {
    && (forall y :: y in TeamNamesOf(trade) <==> y in Parties(ts))
    && (forall i :: 0 <= i < |trade.teams| ==>
          trade.teams[i].sent == SentBy(ts, trade.teams[i].team) &&
          trade.teams[i].acquired == AcquiredBy(ts, trade.teams[i].team))
  }

  lemma ActivityFromCarry(trade: Trade, ts: seq<Transfer>, i: int)
    requires Tabulates(trade, ts)
    requires 0 <= i < |ts| && Carries(ts[i])
    ensures HasActivity(trade)
  {
    PartiesHolds(ts, i);
    SentByHolds(ts, i);
    var c := ts[i].fromTeam;
    assert c in TeamNamesOf(trade);
    var k :| 0 <= k < |trade.teams| && TeamNamesOf(trade)[k] == c;
    assert trade.teams[k].sent != [];
  }

  lemma CarryFromActivity(trade: Trade, ts: seq<Transfer>)
    requires Tabulates(trade, ts)
    requires HasActivity(trade)
    ensures exists i :: 0 <= i < |ts| && Carries(ts[i])
  {
    var k :| 0 <= k < |trade.teams| && (trade.teams[k].sent != [] || trade.teams[k].acquired != []);
    if trade.teams[k].sent != [] {
      SentByWitness(ts, trade.teams[k].team);
    } else {
      AcquiredByWitness(ts, trade.teams[k].team);
    }
  }

  /** `validate_trade` accepts an aggregated trade exactly when some transfer carried an
      asset. */
  lemma ValidateAggregate(ts: seq<Transfer>)
    requires Aggregate(ts).Ok?
    ensures HasActivity(Aggregate(ts).value) <==> exists i :: 0 <= i < |ts| && Carries(ts[i])
  {
    var trade := Aggregate(ts).value;
    assert Tabulates(trade, ts);
    if exists i :: 0 <= i < |ts| && Carries(ts[i]) {
      var i :| 0 <= i < |ts| && Carries(ts[i]);
      ActivityFromCarry(trade, ts, i);
    }
    if HasActivity(trade) {
      CarryFromActivity(trade, ts);
    }
  }

  /** A buildable transfer of one of the three kinds always carries its asset. */
  lemma BuildableCarries(t: Transfer)
    requires Buildable(t) && IsAssetKind(t.asset.kind)
    ensures Carries(t)
  {
  }

  /** For transfers whose kinds are all valid (every transfer leaving the repair pass),
      a successful aggregation validates exactly when there was at least one transfer. */
  lemma ValidateAggregateNonEmpty(ts: seq<Transfer>)
    requires forall i :: 0 <= i < |ts| ==> IsAssetKind(ts[i].asset.kind)
    requires Aggregate(ts).Ok?
    ensures HasActivity(Aggregate(ts).value) <==> ts != []
  {
    ValidateAggregate(ts);
    if ts != [] {
      FoldOk(Tally(map[], map[]), ts);
      BuildableCarries(ts[0]);
    }
  }

  /** The team order depends only on which teams take part, not on the order or number
      of the transfers naming them. */
  lemma TeamOrderCanonical(ts: seq<Transfer>, us: seq<Transfer>)
    requires Aggregate(ts).Ok? && Aggregate(us).Ok?
    requires Parties(ts) == Parties(us)
    ensures TeamNamesOf(Aggregate(ts).value) == TeamNamesOf(Aggregate(us).value)
  {
    SortedUniqueList(TeamNamesOf(Aggregate(ts).value), TeamNamesOf(Aggregate(us).value));
  }
}

=== FILE: checkpoints.dfy ===
/**
 * The checkpointing driver `parse_trade_htmls` (trade_graph_builder.py, lines
 * 361-448) as a pure step function. Files become a store with one slot per range
 * checkpoint and one per year checkpoint; the scraped pages become an archive of
 * paragraphs per year; `parse_trade` is a parameter.
 */
module Checkpoints {
  import opened Results
  import opened TradeTypes
  import opened Pipeline

  /** A Python `range(start, stop)` of years. */
  datatype YearRange = YearRange(start: int, stop: int)

  /** The years of a range, in order. */
  function Years(r: YearRange): (ys: seq<int>)
    ensures |ys| == if r.stop <= r.start then 0 else r.stop - r.start
    ensures forall i :: 0 <= i < |ys| ==> ys[i] == r.start + i
  {
    if r.stop <= r.start then [] else seq(r.stop - r.start, i requires 0 <= i < r.stop - r.start => r.start + i)
  }

  /** Lines 368-373. */
  const FixedRanges: seq<YearRange> :=
    [YearRange(2004, 2009), YearRange(2009, 2015), YearRange(2015, 2020), YearRange(2020, 2025)]

  /** The checkpoint files: `trades_<start>_<end>.json` maps each year of a range to its
      trades; `trade_checkpoints/<year>.json` holds one year's trades. */
  datatype Store = Store(ranges: map<YearRange, map<int, seq<Trade>>>, years: map<int, seq<Trade>>)

  /** The scraped pages: for each year whose page exists, its paragraphs with their
      whitespace already collapsed. */
  type Archive = map<int, seq<string>>

  /** `parse_trade` as the driver sees it. */
  type Parser = string -> Option<Trade>

  /** The trades of one page and the number of `parse_trade` calls spent on it. */
  datatype Parsed = Parsed(trades: seq<Trade>, calls: nat)

  /** Lines 412-421: every paragraph that mentions "traded" is parsed, and the ones
      that parse are kept in page order. */
  function ParsePage(ps: seq<string>, parse: Parser): (r: Parsed)
    ensures |r.trades| <= r.calls <= |ps|
    decreases |ps|
  {
    if ps == [] then Parsed([], 0) else Visit(ps[0], ParsePage(ps[1..], parse), parse)
  }

  /** One paragraph in front of the rest of the page: skipped by the filter, or parsed
      at the cost of one call and its trade, if any, put first. */
  function Visit(p: string, rest: Parsed, parse: Parser): (r: Parsed)
    ensures rest.calls <= r.calls <= rest.calls + 1
    ensures |rest.trades| <= |r.trades| <= |rest.trades| + (r.calls - rest.calls)
  {
    if !IsActualTrade(p) then rest
    else match parse(p)
      case Some(t) => Parsed([t] + rest.trades, rest.calls + 1)
      case None => Parsed(rest.trades, rest.calls + 1)
  }

  /** What follows a paragraph does not change what the paragraph contributes. */
  lemma VisitAppend(p: string, rest: Parsed, more: Parsed, parse: Parser)
    ensures Visit(p, Parsed(rest.trades + more.trades, rest.calls + more.calls), parse)
      == Parsed(Visit(p, rest, parse).trades + more.trades, Visit(p, rest, parse).calls + more.calls)
  {
    if IsActualTrade(p) && parse(p).Some? {
      assert [parse(p).value] + (rest.trades + more.trades) == ([parse(p).value] + rest.trades) + more.trades;
    }
  }

  /** The progress of one range: the store, the `range_trades` map, calls so far. */
  datatype RangeProgress = RangeProgress(store: Store, byYear: map<int, seq<Trade>>, calls: nat)

  /** Lines 393-429 for one year: an existing year checkpoint is loaded; a missing page
      gives no trades and writes nothing; otherwise the page is parsed and its year
      checkpoint written. */
  function ProcessYear(p: RangeProgress, archive: Archive, year: int, parse: Parser): (q: RangeProgress)
    ensures Extends(p.store, q.store) && q.store.ranges == p.store.ranges
    ensures q.byYear == p.byYear[year := Outcome(p.store, archive, year, parse)]
    ensures forall y :: y in q.store.years <==> y in p.store.years || (y == year && year in archive)
    ensures year in p.store.years || year !in archive ==> q.calls == p.calls
  {
    if year in p.store.years then
      RangeProgress(p.store, p.byYear[year := p.store.years[year]], p.calls)
    else if year !in archive then
      RangeProgress(p.store, p.byYear[year := []], p.calls)
    else
      var page := ParsePage(archive[year], parse);
      RangeProgress(p.store.(years := p.store.years[year := page.trades]), p.byYear[year := page.trades], p.calls + page.calls)
  }

  function ProcessYears(p: RangeProgress, archive: Archive, ys: seq<int>, parse: Parser): RangeProgress
    decreases |ys|
  {
    if ys == [] then p else ProcessYears(ProcessYear(p, archive, ys[0], parse), archive, ys[1..], parse)
  }

  /** The state of the whole run: the store, `all_trades`, and calls so far. */
  datatype RunState = RunState(store: Store, all: map<int, seq<Trade>>, calls: nat)

  /** Lines 375-443 for one range: an existing range checkpoint is merged wholesale;
      otherwise its years are processed, the range checkpoint is written, and the
      result merged. */
  function ProcessRange(s: RunState, archive: Archive, r: YearRange, parse: Parser): (t: RunState)
    ensures Extends(s.store, t.store)
    ensures r in t.store.ranges && t.all == s.all + t.store.ranges[r]
    ensures r in s.store.ranges ==> t.calls == s.calls && t.store == s.store
    ensures r !in s.store.ranges ==>
      && (forall y :: y in t.store.ranges[r] <==> y in Years(r))
      && (forall y :: y in Years(r) ==> t.store.ranges[r][y] == Outcome(s.store, archive, y, parse))
  {
    YearsDistinct(r);
    ProcessYearsSpec(RangeProgress(s.store, map[], s.calls), archive, Years(r), parse);
    if r in s.store.ranges then
      RunState(s.store, s.all + s.store.ranges[r], s.calls)
    else
      var p := ProcessYears(RangeProgress(s.store, map[], s.calls), archive, Years(r), parse);
      RunState(p.store.(ranges := p.store.ranges[r := p.byYear]), s.all + p.byYear, p.calls)
  }

  function Run(s: RunState, archive: Archive, rs: seq<YearRange>, parse: Parser): RunState
    decreases |rs|
  {
    if rs == [] then s else Run(ProcessRange(s, archive, rs[0], parse), archive, rs[1..], parse)
  }

  /** `parse_trade_htmls`: the final store and the `all_trades` map written to
      `trades.json`. */
  function ParseTradeHtmls(store: Store, archive: Archive, parse: Parser): (t: RunState)
    ensures Extends(store, t.store)
    ensures forall r :: r in FixedRanges ==> r in t.store.ranges
    ensures t.all == Merged(t.store, FixedRanges, map[])
  {
    RunSpec(RunState(store, map[], 0), archive, FixedRanges, parse);
    Run(RunState(store, map[], 0), archive, FixedRanges, parse)
  }

  // ---------------------------------------------------------------------------
  // One page
  // ---------------------------------------------------------------------------

  /** The paragraphs the filter lets through. */
  function Mentions(ps: seq<string>): nat
    decreases |ps|
  {
    if ps == [] then 0 else (if IsActualTrade(ps[0]) then 1 else 0) + Mentions(ps[1..])
  }

  /** Paragraphs are parsed independently: parsing a page in two halves gives the trades
      of each half in order, and a paragraph that fails to parse costs only itself. */
  lemma {:induction false} ParsePageAppend(a: seq<string>, b: seq<string>, parse: Parser)
    ensures ParsePage(a + b, parse).trades == ParsePage(a, parse).trades + ParsePage(b, parse).trades
    ensures ParsePage(a + b, parse).calls == ParsePage(a, parse).calls + ParsePage(b, parse).calls
    decreases |a|
  {
    if a == [] {
      assert a + b == b;
    } else {
      assert (a + b)[0] == a[0];
      assert (a + b)[1..] == a[1..] + b;
      ParsePageAppend(a[1..], b, parse);
      VisitAppend(a[0], ParsePage(a[1..], parse), ParsePage(b, parse), parse);
    }
  }

  /** A single paragraph costs one call when it mentions "traded", and contributes its
      parsed trade exactly when the parser returns one. */
  lemma ParsePageOne(p: string, parse: Parser)
    ensures ParsePage([p], parse).calls == if IsActualTrade(p) then 1 else 0
    ensures ParsePage([p], parse).trades == if IsActualTrade(p) && parse(p).Some? then [parse(p).value] else []
  {
    assert [p][1..] == [];
  }

  /** Every trade parsed from a paragraph that passes the filter is kept. */
  lemma {:induction false} ParsePageKeeps(ps: seq<string>, parse: Parser, j: nat)
    requires j < |ps| && IsActualTrade(ps[j]) && parse(ps[j]).Some?
    ensures parse(ps[j]).value in ParsePage(ps, parse).trades
    decreases j
  {
    var rest := ParsePage(ps[1..], parse);
    assert ParsePage(ps, parse) == Visit(ps[0], rest, parse);
    if j > 0 {
      assert ps[1..][j - 1] == ps[j];
      ParsePageKeeps(ps[1..], parse, j - 1);
    }
  }

  /** `t` is what the parser returned for some paragraph of `ps` that mentions "traded". */
  ghost predicate ParsedFrom(ps: seq<string>, parse: Parser, t: Trade) {
    exists j :: 0 <= j < |ps| && IsActualTrade(ps[j]) && parse(ps[j]) == Some(t)
  }

  lemma ParsedFromTail(ps: seq<string>, parse: Parser, t: Trade)
    requires ps != [] && ParsedFrom(ps[1..], parse, t)
    ensures ParsedFrom(ps, parse, t)
  {
    var j :| 0 <= j < |ps[1..]| && IsActualTrade(ps[1..][j]) && parse(ps[1..][j]) == Some(t);
    assert ps[j + 1] == ps[1..][j];
  }

  /** Exactly the paragraphs mentioning "traded" are parsed, and every kept trade is the
      result of parsing one of them. */
  lemma {:induction false} ParsePageSound(ps: seq<string>, parse: Parser)
    ensures ParsePage(ps, parse).calls == Mentions(ps)
    ensures forall i :: 0 <= i < |ParsePage(ps, parse).trades| ==> ParsedFrom(ps, parse, ParsePage(ps, parse).trades[i])
    decreases |ps|
  {
    if ps != [] {
      ParsePageSound(ps[1..], parse);
      var rest := ParsePage(ps[1..], parse);
      var r := ParsePage(ps, parse);
      assert r == Visit(ps[0], rest, parse);
      var hit := IsActualTrade(ps[0]) && parse(ps[0]).Some?;
      assert hit ==> r.trades == [parse(ps[0]).value] + rest.trades;
      assert !hit ==> r.trades == rest.trades;
      forall i | 0 <= i < |r.trades|
        ensures ParsedFrom(ps, parse, r.trades[i])
      {
        if hit && i == 0 {
          assert IsActualTrade(ps[0]) && parse(ps[0]) == Some(r.trades[0]);
        } else {
          var k := if hit then i - 1 else i;
          assert r.trades[i] == rest.trades[k];
          ParsedFromTail(ps, parse, r.trades[i]);
        }
      }
    }
  }

  // ---------------------------------------------------------------------------
  // One range
  // ---------------------------------------------------------------------------

  /** What a year of a range that is not yet checkpointed ends up holding, judged from
      the store before the range started. */
  function Outcome(store: Store, archive: Archive, year: int, parse: Parser): seq<Trade> {
    if year in store.years then store.years[year]
    else if year in archive then ParsePage(archive[year], parse).trades
    else []
  }

  /** Checkpoints are only ever added: every slot of `a` is in `b` with the same content. */
  predicate Extends(a: Store, b: Store) {
    && (forall r :: r in a.ranges ==> r in b.ranges && b.ranges[r] == a.ranges[r])
    && (forall y :: y in a.years ==> y in b.years && b.years[y] == a.years[y])
  }

  predicate Distinct(ys: seq<int>) {
    forall i, j :: 0 <= i < j < |ys| ==> ys[i] != ys[j]
  }

  /** Processing distinct years fills `range_trades` with each year's outcome, writes a
      year checkpoint exactly for the years that had a page and none, never overwrites
      anything, and leaves range checkpoints alone. */
  lemma {:induction false} ProcessYearsSpec(p: RangeProgress, archive: Archive, ys: seq<int>, parse: Parser)
    requires Distinct(ys)
    ensures var q := ProcessYears(p, archive, ys, parse);
      && Extends(p.store, q.store)
      && q.store.ranges == p.store.ranges
      && (forall y :: y in q.byYear <==> y in p.byYear || y in ys)
      && (forall y :: y in ys ==> q.byYear[y] == Outcome(p.store, archive, y, parse))
      && (forall y :: y !in ys && y in p.byYear ==> q.byYear[y] == p.byYear[y])
      && (forall y :: y in q.store.years <==> y in p.store.years || (y in ys && y in archive))
      && (forall y :: y in ys && y !in p.store.years && y in archive ==> q.store.years[y] == q.byYear[y])
    decreases |ys|
  {
    if ys != [] {
      var y := ys[0];
      var p1 := ProcessYear(p, archive, y, parse);
      assert Distinct(ys[1..]);
      ProcessYearsSpec(p1, archive, ys[1..], parse);
      assert y !in ys[1..];
      forall z | z in ys[1..] ensures Outcome(p1.store, archive, z, parse) == Outcome(p.store, archive, z, parse) {
        assert z != y;
      }
    }
  }

  /** A range whose years all have year checkpoints is loaded without a single call. */
  lemma {:induction false} ProcessYearsIdle(p: RangeProgress, archive: Archive, ys: seq<int>, parse: Parser)
    requires forall y :: y in ys ==> y in p.store.years
    ensures ProcessYears(p, archive, ys, parse).calls == p.calls
    ensures ProcessYears(p, archive, ys, parse).store == p.store
    decreases |ys|
  {
    if ys != [] {
      ProcessYearsIdle(ProcessYear(p, archive, ys[0], parse), archive, ys[1..], parse);
    }
  }

  lemma YearsDistinct(r: YearRange)
    ensures Distinct(Years(r))
  {
  }

  // ---------------------------------------------------------------------------
  // The whole run
  // ---------------------------------------------------------------------------

  /** `all_trades` as the successive merges of the ranges' checkpoints. */
  function Merged(store: Store, rs: seq<YearRange>, all: map<int, seq<Trade>>): map<int, seq<Trade>>
    requires forall r :: r in rs ==> r in store.ranges
    decreases |rs|
  {
    if rs == [] then all else Merged(store, rs[1..], all + store.ranges[rs[0]])
  }

  lemma ExtendsTrans(a: Store, b: Store, c: Store)
    requires Extends(a, b) && Extends(b, c)
    ensures Extends(a, c)
  {
  }

  /** After a run every range has a checkpoint, the store only grew, and `all_trades`
      is the merge of the ranges' checkpoints in range order. */
  lemma {:induction false} RunSpec(s: RunState, archive: Archive, rs: seq<YearRange>, parse: Parser)
    ensures var t := Run(s, archive, rs, parse);
      && Extends(s.store, t.store)
      && (forall r :: r in rs ==> r in t.store.ranges)
      && t.all == Merged(t.store, rs, s.all)
    decreases |rs|
  {
    if rs != [] {
      var s1 := ProcessRange(s, archive, rs[0], parse);
      RunSpec(s1, archive, rs[1..], parse);
      var t := Run(s, archive, rs, parse);
      ExtendsTrans(s.store, s1.store, t.store);
      forall r | r in rs ensures r in t.store.ranges {
        if r != rs[0] { assert r in rs[1..]; }
      }
    }
  }

  /** With every range already checkpointed, a run makes no call, writes nothing, and
      only merges. */
  lemma {:induction false} RunIdle(s: RunState, archive: Archive, rs: seq<YearRange>, parse: Parser)
    requires forall r :: r in rs ==> r in s.store.ranges
    ensures Run(s, archive, rs, parse) == RunState(s.store, Merged(s.store, rs, s.all), s.calls)
    decreases |rs|
  {
    if rs != [] {
      RunIdle(ProcessRange(s, archive, rs[0], parse), archive, rs[1..], parse);
    }
  }

  /** Re-running the driver on the store a run left behind parses nothing, writes
      nothing, and produces the same year-to-trades map. */
  lemma SecondRunIdle(store: Store, archive: Archive, parse: Parser)
    ensures var first := ParseTradeHtmls(store, archive, parse);
      var second := ParseTradeHtmls(first.store, archive, parse);
      second.calls == 0 && second.store == first.store && second.all == first.all
  {
    var first := ParseTradeHtmls(store, archive, parse);
    RunIdle(RunState(first.store, map[], 0), archive, FixedRanges, parse);
  }

  // ---------------------------------------------------------------------------
  // Only well-formed trades are ever stored
  // ---------------------------------------------------------------------------

  predicate GoodTrades(ts: seq<Trade>) {
    forall i :: 0 <= i < |ts| ==> WellFormedTrade(ts[i])
  }

  predicate GoodMap(m: map<int, seq<Trade>>) {
    forall y :: y in m ==> GoodTrades(m[y])
  }

  predicate GoodStore(store: Store) {
    (forall r :: r in store.ranges ==> GoodMap(store.ranges[r])) && GoodMap(store.years)
  }

  /** A parser that only ever returns well-formed trades, as `parse_trade` does. */
  ghost predicate GoodParser(parse: Parser) {
    forall text :: parse(text).Some? ==> WellFormedTrade(parse(text).value)
  }

  lemma ParseTradeIsGood(extract: Extraction.Extractor)
    ensures GoodParser(text => ParseTrade(text, extract))
  {
  }

  lemma {:induction false} ParsePageGood(ps: seq<string>, parse: Parser)
    requires GoodParser(parse)
    ensures GoodTrades(ParsePage(ps, parse).trades)
    decreases |ps|
  {
    if ps != [] {
      ParsePageGood(ps[1..], parse);
    }
  }

  lemma {:induction false} ProcessYearsGood(p: RangeProgress, archive: Archive, ys: seq<int>, parse: Parser)
    requires GoodParser(parse) && GoodStore(p.store) && GoodMap(p.byYear)
    ensures GoodStore(ProcessYears(p, archive, ys, parse).store)
    ensures GoodMap(ProcessYears(p, archive, ys, parse).byYear)
    decreases |ys|
  {
    if ys != [] {
      if ys[0] !in p.store.years && ys[0] in archive {
        ParsePageGood(archive[ys[0]], parse);
      }
      ProcessYearsGood(ProcessYear(p, archive, ys[0], parse), archive, ys[1..], parse);
    }
  }

  /** Starting from checkpoints that hold only well-formed trades, with a parser that
      returns only well-formed trades, every checkpoint written and every entry of
      `all_trades` holds only well-formed trades. */
  lemma {:induction false} RunGood(s: RunState, archive: Archive, rs: seq<YearRange>, parse: Parser)
    requires GoodParser(parse) && GoodStore(s.store) && GoodMap(s.all)
    ensures GoodStore(Run(s, archive, rs, parse).store)
    ensures GoodMap(Run(s, archive, rs, parse).all)
    decreases |rs|
  {
    if rs != [] {
      ProcessRangeGood(s, archive, rs[0], parse);
      RunGood(ProcessRange(s, archive, rs[0], parse), archive, rs[1..], parse);
    }
  }

  lemma ProcessRangeGood(s: RunState, archive: Archive, r: YearRange, parse: Parser)
    requires GoodParser(parse) && GoodStore(s.store) && GoodMap(s.all)
    ensures GoodStore(ProcessRange(s, archive, r, parse).store)
    ensures GoodMap(ProcessRange(s, archive, r, parse).all)
  {
    if r !in s.store.ranges {
      ProcessYearsGood(RangeProgress(s.store, map[], s.calls), archive, Years(r), parse);
    }
  }

  /** The driver with the real `parse_trade`: everything it stores and returns is a
      well-formed trade. */
  lemma DriverStoresWellFormed(store: Store, archive: Archive, extract: Extraction.Extractor)
    requires GoodStore(store)
    ensures var t := ParseTradeHtmls(store, archive, text => ParseTrade(text, extract));
      GoodStore(t.store) && GoodMap(t.all)
  {
    ParseTradeIsGood(extract);
    RunGood(RunState(store, map[], 0), archive, FixedRanges, text => ParseTrade(text, extract));
  }

  // ---------------------------------------------------------------------------
  // The fixed ranges
  // ---------------------------------------------------------------------------

  function AllYears(rs: seq<YearRange>): seq<int>
    decreases |rs|
  {
    if rs == [] then [] else Years(rs[0]) + AllYears(rs[1..])
  }

  /** The four ranges are contiguous and together cover 2004 through 2024, each year
      once (their end years are 2008, 2014, 2019 and 2024). */
  lemma FixedRangesCover()
    ensures AllYears(FixedRanges) == seq(21, i requires 0 <= i < 21 => 2004 + i)
    ensures forall k :: 0 <= k < |FixedRanges| - 1 ==> FixedRanges[k].stop == FixedRanges[k + 1].start
    ensures [FixedRanges[0].stop - 1, FixedRanges[1].stop - 1, FixedRanges[2].stop - 1, FixedRanges[3].stop - 1]
      == [2008, 2014, 2019, 2024]
  {
    FixedYearsConcat();
    YearsAppend(2004, 2009, 2015);
    YearsAppend(2004, 2015, 2020);
    YearsAppend(2004, 2020, 2025);
  }

  lemma FixedYearsConcat()
    ensures AllYears(FixedRanges) ==
      Years(FixedRanges[0]) + Years(FixedRanges[1]) + Years(FixedRanges[2]) + Years(FixedRanges[3])
  {
    assert AllYears(FixedRanges[3..]) == Years(FixedRanges[3]) by {
      assert FixedRanges[3..][1..] == [];
    }
    assert FixedRanges[2..][1..] == FixedRanges[3..];
    assert FixedRanges[1..][1..] == FixedRanges[2..];
  }

  /** Two adjacent ranges list the years of the range that spans both. */
  lemma YearsAppend(a: int, m: int, b: int)
    requires a <= m <= b
    ensures Years(YearRange(a, m)) + Years(YearRange(m, b)) == Years(YearRange(a, b))
  {
  }
}

=== FILE: extraction.dfy ===
/**
 * Step 1 of the trade parser (`parse_trade_step1`, trade_graph_builder.py):
 * each clause goes to the extraction service, whose reply is validated,
 * repaired, team-normalised, and concatenated in clause order.
 */
module Extraction {
  import opened Results
  import opened Strings
  import opened TeamNames
  import opened TradeTypes
  import Preprocess

  /** Why a document's extraction is abandoned: the service call raised (line 166),
      or its reply failed `TransferList.model_validate_json` (line 176). */
  datatype ExtractError = ServiceFailure | SchemaViolation

  /** The extraction service as the model sees it: a clause in, the decoded candidate
      transfers or a failure out. Prompt, model and sampling are not modelled. */
  type Extractor = string -> Result<seq<Transfer>, ExtractError>

  /** The `Literal` constraints of lines 32 and 35: the kind is one of the three, and a
      round, when present, is 1 or 2. */
  predicate SchemaValid(t: Transfer) {
    IsAssetKind(t.asset.kind) && (t.asset.round.Some? ==> t.asset.round.value == 1 || t.asset.round.value == 2)
  }

  /** Validation rejects the whole reply when any candidate breaks the schema. */
  function Validate(raw: seq<Transfer>): (r: Result<seq<Transfer>, ExtractError>)
    ensures r.Ok? <==> forall i :: 0 <= i < |raw| ==> SchemaValid(raw[i])
    ensures r.Ok? ==> r.value == raw
  {
    if forall i :: 0 <= i < |raw| ==> SchemaValid(raw[i]) then Ok(raw) else Err(SchemaViolation)
  }

  /** A reply is accepted exactly when each of its parts would be: validation looks at
      each candidate on its own, and one bad candidate condemns the whole reply. */
  lemma ValidateAppend(a: seq<Transfer>, b: seq<Transfer>)
    ensures Validate(a + b).Ok? <==> Validate(a).Ok? && Validate(b).Ok?
    ensures Validate(a + b).Ok? ==> Validate(a + b).value == Validate(a).value + Validate(b).value
  {
    if Validate(a).Ok? && Validate(b).Ok? {
      forall i | 0 <= i < |a + b| ensures SchemaValid((a + b)[i]) {
        if i < |a| {
          assert (a + b)[i] == a[i];
        } else {
          assert (a + b)[i] == b[i - |a|];
        }
      }
    }
    if Validate(a + b).Ok? {
      forall i | 0 <= i < |a| ensures SchemaValid(a[i]) {
        assert (a + b)[i] == a[i];
      }
      forall i | 0 <= i < |b| ensures SchemaValid(b[i]) {
        assert (a + b)[i + |a|] == b[i];
      }
    }
  }

  // ---------------------------------------------------------------------------
  // Year repair (line 194: `re.search(r'(\d{4})', year)`)
  // ---------------------------------------------------------------------------

  predicate FourDigitsAt(s: string, i: int) {
    0 <= i && i + 4 <= |s| && IsDigit(s[i]) && IsDigit(s[i + 1]) && IsDigit(s[i + 2]) && IsDigit(s[i + 3])
  }

  ghost predicate HasFourDigits(s: string) {
    exists i :: FourDigitsAt(s, i)
  }

  /** Position of the leftmost run of four digits at or after `from`. */
  function FirstFourDigits(s: string, from: nat): (r: Option<nat>)
    ensures r.Some? ==> from <= r.value && FourDigitsAt(s, r.value)
    ensures r.Some? ==> forall j :: from <= j < r.value ==> !FourDigitsAt(s, j)
    ensures r.None? ==> forall j :: from <= j ==> !FourDigitsAt(s, j)
    decreases |s| - from
  {
    if from + 4 > |s| then None
    else if FourDigitsAt(s, from) then Some(from)
    else FirstFourDigits(s, from + 1)
  }

  /** The text of the first four-digit run, as `year_match.group(1)`. */
  function YearRun(s: string): (y: string)
    requires FirstFourDigits(s, 0).Some?
    ensures |y| == 4 && FourDigitsAt(y, 0)
  {
    var i := FirstFourDigits(s, 0).value;
    s[i..i + 4]
  }

  // ---------------------------------------------------------------------------
  // Repair and normalisation (lines 179-218)
  // ---------------------------------------------------------------------------

  /** Line 182: the one asset-kind synonym the repair pass knows. */
  function FixKind(kind: string): string {
    if kind == "draft_pick" then PickKind else kind
  }

  /** One candidate through lines 180-206: `None` where the loop `continue`s. What
      survives has one of the three kinds, and a surviving pick has round 1 or 2 and a
      year that is absent, empty or exactly four digits. */
  function Repair(t: Transfer): (r: Option<Transfer>)
    ensures r.Some? ==> IsAssetKind(r.value.asset.kind)
    ensures r.Some? && r.value.asset.kind == PickKind ==>
      (r.value.asset.round == Some(1) || r.value.asset.round == Some(2)) && YearShape(r.value.asset.year)
  {
    var a := t.asset.(kind := FixKind(t.asset.kind));
    if !IsAssetKind(a.kind) then None
    else if a.kind == PickKind then
      if Truthy(a.year) && FirstFourDigits(a.year.value, 0).None? then None
      else
        var a2 := if Truthy(a.year) then a.(year := Some(YearRun(a.year.value))) else a;
        if a2.round == Some(1) || a2.round == Some(2) then Some(t.(asset := a2)) else None
    else Some(t.(asset := a))
  }

  function RepairAll(ts: seq<Transfer>): (r: seq<Transfer>)
    ensures |r| <= |ts|
    decreases |ts|
  {
    if ts == [] then []
    else
      var rest := RepairAll(ts[1..]);
      match Repair(ts[0])
      case Some(t) => [t] + rest
      case None => rest
  }

  /** Lines 211-218: both sides and any supplied owner through the normaliser; a pick
      without an owner gets the (already normalised) sending team. */
  function NormalizeTransfer(t: Transfer): (n: Transfer)
    ensures TeamsCanonical(n)
  {
    var from := Normalize(t.fromTeam);
    var to := Normalize(t.toTeam);
    var team :=
      if Truthy(t.asset.team) then Some(Normalize(t.asset.team.value))
      else if t.asset.kind == PickKind then Some(from)
      else t.asset.team;
    Transfer(from, to, t.asset.(team := team))
  }

  /** Every team field is a code the normaliser can return, and a pick has an owner. */
  predicate TeamsCanonical(t: Transfer) {
    && IsCode(t.fromTeam) && IsCode(t.toTeam)
    && (t.asset.team.Some? ==> IsCode(t.asset.team.value))
    && (t.asset.kind == PickKind ==> t.asset.team.Some?)
  }

  /** The loop of lines 211-218 over one clause's transfers: same length and order, and
      every team field canonical afterwards. */
  function NormalizeAll(ts: seq<Transfer>): (r: seq<Transfer>)
    ensures |r| == |ts|
    ensures forall i :: 0 <= i < |r| ==> TeamsCanonical(r[i])
    ensures forall i :: 0 <= i < |ts| ==> r[i] == NormalizeTransfer(ts[i])
  {
    seq(|ts|, i requires 0 <= i < |ts| => NormalizeTransfer(ts[i]))
  }

  /** One clause: call the service, validate, repair, normalise (lines 156-220). */
  function ExtractClause(clause: string, extract: Extractor): Result<seq<Transfer>, ExtractError> {
    match extract(clause)
    case Err(e) => Err(e)
    case Ok(raw) =>
      match Validate(raw)
      case Err(e) => Err(e)
      case Ok(valid) => Ok(NormalizeAll(RepairAll(valid)))
  }

  /** All clauses in order; the first failing clause aborts the document (its exception
      leaves the loop of lines 155-220), so the later ones contribute nothing. */
  function ExtractClauses(clauses: seq<string>, extract: Extractor): Result<seq<Transfer>, ExtractError>
    decreases |clauses|
  {
    if clauses == [] then Ok([])
    else Then(ExtractClause(clauses[0], extract), ExtractClauses(clauses[1..], extract))
  }

  /** Sequencing two extraction outcomes: the first error wins, otherwise the lists are
      concatenated in order. */
  function Then(a: Result<seq<Transfer>, ExtractError>, b: Result<seq<Transfer>, ExtractError>): Result<seq<Transfer>, ExtractError> {
    if a.Err? then a else if b.Err? then b else Ok(a.value + b.value)
  }

  /** `parse_trade_step1`: every transfer it returns is canonical (a known kind,
      team fields the normaliser can return, and for a pick an owner, round 1 or 2 and a well-shaped year). */
  function ParseStep1(text: string, extract: Extractor): (r: Result<seq<Transfer>, ExtractError>)
    ensures r.Ok? ==> forall i :: 0 <= i < |r.value| ==> Canonical(r.value[i])
  {
    ExtractClausesSound(Preprocess.Clauses(text), extract);
    ExtractClauses(Preprocess.Clauses(text), extract)
  }

  // ---------------------------------------------------------------------------
  // What the repair pass guarantees
  // ---------------------------------------------------------------------------

  /** A year the repair pass lets through on a pick: absent, empty, or four digits. */
  predicate YearShape(y: Option<string>) {
    y.None? || y.value == [] || (|y.value| == 4 && FourDigitsAt(y.value, 0))
  }

  /** `y` is the first four-digit run of `s`. */
  ghost predicate IsFirstRun(y: string, s: string) {
    exists i :: FourDigitsAt(s, i) && y == s[i..i + 4] && forall j :: 0 <= j < i ==> !FourDigitsAt(s, j)
  }

  /** The shape every transfer leaving step 1 has. */
  predicate Canonical(t: Transfer) {
    && IsAssetKind(t.asset.kind)
    && IsCode(t.fromTeam) && IsCode(t.toTeam)
    && (t.asset.team.Some? ==> IsCode(t.asset.team.value))
    && (t.asset.kind == PickKind ==>
          && t.asset.team.Some?
          && (t.asset.round == Some(1) || t.asset.round == Some(2))
          && YearShape(t.asset.year))
  }

  lemma FirstFourDigitsIff(s: string)
    ensures FirstFourDigits(s, 0).Some? <==> HasFourDigits(s)
  {
  }

  /** The repair pass keeps a candidate exactly when, after the synonym fix, its kind is
      valid and, for a pick, a non-empty year contains four digits and the round is 1 or 2. */
  lemma RepairKeepsIff(t: Transfer)
    ensures Repair(t).Some? <==>
      && IsAssetKind(FixKind(t.asset.kind))
      && (FixKind(t.asset.kind) == PickKind ==>
            && (Truthy(t.asset.year) ==> HasFourDigits(t.asset.year.value))
            && (t.asset.round == Some(1) || t.asset.round == Some(2)))
  {
    if Truthy(t.asset.year) {
      FirstFourDigitsIff(t.asset.year.value);
    }
  }

  /** A kept candidate differs from its input only in the kind synonym and, for a pick
      with a non-empty year, in the year cut down to its first four-digit run. */
  lemma RepairChanges(t: Transfer)
    requires Repair(t).Some?
    ensures var r := Repair(t).value;
      && r.fromTeam == t.fromTeam && r.toTeam == t.toTeam
      && r.asset.kind == FixKind(t.asset.kind)
      && r.asset.name == t.asset.name && r.asset.round == t.asset.round
      && r.asset.team == t.asset.team && r.asset.amount == t.asset.amount
      && (r.asset.kind == PickKind && Truthy(t.asset.year) ==>
            r.asset.year.Some? && IsFirstRun(r.asset.year.value, t.asset.year.value))
      && (!(r.asset.kind == PickKind && Truthy(t.asset.year)) ==> r.asset.year == t.asset.year)
  {
    var r := Repair(t).value;
    if r.asset.kind == PickKind && Truthy(t.asset.year) {
      var i := FirstFourDigits(t.asset.year.value, 0).value;
      assert r.asset.year.value == t.asset.year.value[i..i + 4];
    }
  }

  /** After schema validation the `draft_pick` synonym and the invalid-kind skip can no
      longer fire: a validated candidate is dropped only for its pick year or round. */
  lemma ValidatedRepair(t: Transfer)
    requires SchemaValid(t)
    ensures FixKind(t.asset.kind) == t.asset.kind
    ensures Repair(t).None? <==>
      t.asset.kind == PickKind &&
      ((Truthy(t.asset.year) && !HasFourDigits(t.asset.year.value)) || t.asset.round.None?)
  {
    RepairKeepsIff(t);
  }

  /** Every kept candidate has a valid kind, and a kept pick a round of 1 or 2 and a
      well-shaped year. */
  lemma {:induction false} RepairAllSound(ts: seq<Transfer>)
    ensures forall i :: 0 <= i < |RepairAll(ts)| ==>
      var t := RepairAll(ts)[i];
      IsAssetKind(t.asset.kind) &&
      (t.asset.kind == PickKind ==> (t.asset.round == Some(1) || t.asset.round == Some(2)) && YearShape(t.asset.year))
    decreases |ts|
  {
    if ts != [] {
      RepairAllSound(ts[1..]);
    }
  }

  /** The repair pass is an order-preserving filter: it distributes over concatenation. */
  lemma {:induction false} RepairAllAppend(a: seq<Transfer>, b: seq<Transfer>)
    ensures RepairAll(a + b) == RepairAll(a) + RepairAll(b)
    decreases |a|
  {
    if a == [] {
      assert a + b == b;
    } else {
      assert (a + b)[1..] == a[1..] + b;
      RepairAllAppend(a[1..], b);
    }
  }

  /** One candidate survives the repair pass exactly when `Repair` keeps it, and then in
      its repaired form; with `RepairAllAppend` this makes the pass an order-preserving
      filter. */
  lemma RepairAllOne(t: Transfer)
    ensures RepairAll([t]) == if Repair(t).Some? then [Repair(t).value] else []
  {
    assert [t][1..] == [];
  }

  /** Every candidate `Repair` accepts appears, repaired, in the output of the pass. */
  lemma {:induction false} RepairAllKeeps(ts: seq<Transfer>, i: nat)
    requires i < |ts| && Repair(ts[i]).Some?
    ensures Repair(ts[i]).value in RepairAll(ts)
    decreases i
  {
    if i > 0 {
      assert ts[1..][i - 1] == ts[i];
      RepairAllKeeps(ts[1..], i - 1);
    }
  }

  /** Normalisation touches only team fields: both sides and a supplied (non-empty)
      owner go through the normaliser; a pick with no owner, or the empty one, gets the
      normalised sender; any other asset keeps its absent or empty owner. */
  lemma NormalizeTransferSound(t: Transfer)
    ensures var n := NormalizeTransfer(t);
      && n.asset.kind == t.asset.kind && n.asset.name == t.asset.name
      && n.asset.year == t.asset.year && n.asset.round == t.asset.round
      && n.asset.amount == t.asset.amount
      && n.fromTeam == Normalize(t.fromTeam) && n.toTeam == Normalize(t.toTeam)
      && (n.asset.team.Some? ==> IsCode(n.asset.team.value))
      && (Truthy(t.asset.team) ==> n.asset.team == Some(Normalize(t.asset.team.value)))
      && (!Truthy(t.asset.team) && t.asset.kind == PickKind ==> n.asset.team == Some(n.fromTeam))
      && (!Truthy(t.asset.team) && t.asset.kind != PickKind ==> n.asset.team == t.asset.team)
  {
  }

  /** Normalising a normalised clause changes nothing. */
  lemma NormalizeAllIdempotent(ts: seq<Transfer>)
    ensures NormalizeAll(NormalizeAll(ts)) == NormalizeAll(ts)
  {
    var n := NormalizeAll(ts);
    forall i | 0 <= i < |n| ensures NormalizeAll(n)[i] == n[i] {
      NormalizeTransferIdempotent(ts[i]);
    }
  }

  /** Running the normalisation twice changes nothing. */
  lemma NormalizeTransferIdempotent(t: Transfer)
    ensures NormalizeTransfer(NormalizeTransfer(t)) == NormalizeTransfer(t)
  {
    var n := NormalizeTransfer(t);
    NormalizeIdempotent(t.fromTeam);
    NormalizeIdempotent(t.toTeam);
    if Truthy(t.asset.team) {
      NormalizeIdempotent(t.asset.team.value);
    }
    if n.asset.team.Some? && n.asset.team.value != [] {
      assert n.asset.team.value == Normalize(n.asset.team.value) by {
        if Truthy(t.asset.team) {
        } else {
          assert n.asset.team.value == n.fromTeam;
        }
      }
    }
  }

  // ---------------------------------------------------------------------------
  // Clause-level properties of step 1
  // ---------------------------------------------------------------------------

  /** Extracting a document is extracting its first clauses, then the rest, in order. */
  lemma {:induction false} ExtractClausesAppend(xs: seq<string>, ys: seq<string>, extract: Extractor)
    ensures ExtractClauses(xs + ys, extract) == Then(ExtractClauses(xs, extract), ExtractClauses(ys, extract))
    decreases |xs|
  {
    if xs == [] {
      assert xs + ys == ys;
      var back := ExtractClauses(ys, extract);
      if back.Ok? {
        assert [] + back.value == back.value;
      }
    } else {
      var zs := xs + ys;
      assert zs[0] == xs[0];
      assert zs[1..] == xs[1..] + ys;
      ExtractClausesAppend(xs[1..], ys, extract);
      var head := ExtractClause(xs[0], extract);
      var tail := ExtractClauses(xs[1..], extract);
      var back := ExtractClauses(ys, extract);
      if head.Ok? && tail.Ok? && back.Ok? {
        assert head.value + (tail.value + back.value) == (head.value + tail.value) + back.value;
      }
    }
  }

  /** Step 1 succeeds exactly when every clause does; otherwise it reports the error of
      the first clause that failed. */
  lemma {:induction false} ExtractClausesOutcome(cs: seq<string>, extract: Extractor)
    ensures ExtractClauses(cs, extract).Ok? <==> forall i :: 0 <= i < |cs| ==> ExtractClause(cs[i], extract).Ok?
    ensures ExtractClauses(cs, extract).Err? ==>
      exists k :: 0 <= k < |cs| && ExtractClause(cs[k], extract) == Err(ExtractClauses(cs, extract).error)
        && forall j :: 0 <= j < k ==> ExtractClause(cs[j], extract).Ok?
    decreases |cs|
  {
    if cs != [] {
      ExtractClausesOutcome(cs[1..], extract);
      var r := ExtractClauses(cs, extract);
      if ExtractClause(cs[0], extract).Ok? {
        forall i | 0 < i < |cs|
          ensures ExtractClause(cs[i], extract) == ExtractClause(cs[1..][i - 1], extract)
        {
        }
        if r.Err? {
          var k :| 0 <= k < |cs[1..]| && ExtractClause(cs[1..][k], extract) == Err(r.error)
            && forall j :: 0 <= j < k ==> ExtractClause(cs[1..][j], extract).Ok?;
          assert ExtractClause(cs[k + 1], extract) == Err(r.error);
        }
      } else {
        assert ExtractClause(cs[0], extract) == Err(r.error);
      }
    }
  }

  /** Every transfer one clause yields is canonical. */
  lemma ExtractClauseSound(clause: string, extract: Extractor)
    ensures ExtractClause(clause, extract).Ok? ==>
      forall i :: 0 <= i < |ExtractClause(clause, extract).value| ==> Canonical(ExtractClause(clause, extract).value[i])
  {
    var r := ExtractClause(clause, extract);
    if r.Ok? {
      var raw := extract(clause).value;
      var kept := RepairAll(raw);
      RepairAllSound(raw);
      forall i | 0 <= i < |r.value|
        ensures Canonical(r.value[i])
      {
        NormalizeTransferSound(kept[i]);
      }
    }
  }

  /** Every transfer of a successful step 1 is canonical: known kind, three-letter-or-shorter
      upper-case codes, and for a pick an owner, a round of 1 or 2 and a well-shaped year. */
  lemma {:induction false} ExtractClausesSound(cs: seq<string>, extract: Extractor)
    ensures ExtractClauses(cs, extract).Ok? ==>
      forall i :: 0 <= i < |ExtractClauses(cs, extract).value| ==> Canonical(ExtractClauses(cs, extract).value[i])
    decreases |cs|
  {
    if cs != [] {
      ExtractClauseSound(cs[0], extract);
      ExtractClausesSound(cs[1..], extract);
    }
  }
}

=== FILE: pipeline.dfy ===
/**
 * The per-paragraph entry points of trade_graph_builder.py: the `is_actual_trade`
 * filter and `parse_trade`, which chains extraction, aggregation and validation and
 * turns every failure into `None` (lines 329-358).
 */
module Pipeline {
  import opened Results
  import opened Strings
  import opened Words
  import opened TeamNames
  import opened TradeTypes
  import opened StringOrder
  import opened Extraction
  import opened Aggregation

  /** `is_actual_trade`: it holds exactly when "traded" occurs somewhere in the
      paragraph, letters compared without regard to case. */
  function IsActualTrade(text: string): (b: bool)
    ensures b <==> exists i :: MatchesAt(text, "traded", i)
  {
    TradedOccurs(text);
    IsInfix("traded", Lower(text))
  }

  /** `parse_trade`: the aggregated trade when extraction succeeds, every asset can be
      built and some team moved something; `None` otherwise. The JSON text the source
      returns is represented by the record it serialises. */
  function ParseTrade(text: string, extract: Extractor): (r: Option<Trade>)
    ensures r.Some? ==> WellFormedTrade(r.value)
  {
    match ParseStep1(text, extract)
    case Err(_) => None
    case Ok(ts) =>
      match Aggregate(ts)
      case Err(_) => None
      case Ok(trade) =>
        if HasActivity(trade) then
          AcceptedWellFormed(ts);
          Some(trade)
        else None
  }

  // ---------------------------------------------------------------------------
  // The filter
  // ---------------------------------------------------------------------------

  lemma OccursLowerIff(text: string, p: string, i: int)
    ensures OccursAt(p, Lower(text), i) <==> MatchesAt(text, p, i)
  {
    if MatchesAt(text, p, i) {
      assert Lower(text)[i..i + |p|] == p;
    }
    if OccursAt(p, Lower(text), i) {
      forall k | 0 <= k < |p| ensures LowerChar(text[i + k]) == p[k] {
        assert Lower(text)[i..i + |p|][k] == p[k];
      }
    }
  }

  lemma TradedOccurs(text: string)
    ensures IsInfix("traded", Lower(text)) <==> exists i :: MatchesAt(text, "traded", i)
  {
    if IsInfix("traded", Lower(text)) {
      var i :| 0 <= i <= |text| - 6 && OccursAt("traded", Lower(text), i);
      OccursLowerIff(text, "traded", i);
    }
    if exists i :: MatchesAt(text, "traded", i) {
      var i :| MatchesAt(text, "traded", i);
      OccursLowerIff(text, "traded", i);
    }
  }

  lemma LowerUpper(s: string)
    ensures Lower(Upper(s)) == Lower(s)
  {
  }

  /** Upper-casing a paragraph does not change the filter's answer. */
  lemma IsActualTradeIgnoresCase(text: string)
    ensures IsActualTrade(Upper(text)) == IsActualTrade(text)
  {
    LowerUpper(text);
  }

  // ---------------------------------------------------------------------------
  // What an accepted trade looks like
  // ---------------------------------------------------------------------------

  /** An aggregated asset as step 1 leaves it: a pick has round 1 or 2, a canonical
      owner and an empty or four-digit year. */
  predicate CleanAsset(a: Asset) {
    match a
    case Pick(year, round, owner) =>
      (round == 1 || round == 2) && IsCode(owner) && (year == [] || (|year| == 4 && FourDigitsAt(year, 0)))
    case _ => true
  }

  /** Everything `parse_trade` promises of a trade it returns. */
  predicate WellFormedTrade(trade: Trade) {
    && HasActivity(trade)
    && trade.numTeams == |trade.teams|
    && (trade.isMultiTeam <==> trade.numTeams > 2)
    && StrictlySorted(TeamNamesOf(trade))
    && forall i :: 0 <= i < |trade.teams| ==>
         && IsCode(trade.teams[i].team)
         && (forall a :: a in trade.teams[i].sent ==> CleanAsset(a))
         && (forall a :: a in trade.teams[i].acquired ==> CleanAsset(a))
  }

  lemma MovedClean(t: Transfer)
    requires Canonical(t)
    ensures forall a :: a in MovedList(t) ==> CleanAsset(a)
  {
  }

  lemma {:induction false} PartiesAreCodes(ts: seq<Transfer>)
    requires forall i :: 0 <= i < |ts| ==> Canonical(ts[i])
    ensures forall y :: y in Parties(ts) ==> IsCode(y)
    decreases |ts|
  {
    if ts != [] {
      assert Canonical(ts[0]);
      PartiesAreCodes(ts[1..]);
    }
  }

  lemma {:induction false} SentByClean(ts: seq<Transfer>, c: string)
    requires forall i :: 0 <= i < |ts| ==> Canonical(ts[i])
    ensures forall a :: a in SentBy(ts, c) ==> CleanAsset(a)
    decreases |ts|
  {
    if ts != [] {
      MovedClean(ts[0]);
      SentByClean(ts[1..], c);
    }
  }

  lemma {:induction false} AcquiredByClean(ts: seq<Transfer>, c: string)
    requires forall i :: 0 <= i < |ts| ==> Canonical(ts[i])
    ensures forall a :: a in AcquiredBy(ts, c) ==> CleanAsset(a)
    decreases |ts|
  {
    if ts != [] {
      MovedClean(ts[0]);
      AcquiredByClean(ts[1..], c);
    }
  }

  /** `parse_trade` returns a trade exactly when step 1 succeeds with at least one
      transfer and every transfer's asset can be built; the trade is then the
      aggregation of those transfers. */
  lemma ParseTradeAccepts(text: string, extract: Extractor)
    ensures ParseTrade(text, extract).Some? <==>
      && ParseStep1(text, extract).Ok?
      && ParseStep1(text, extract).value != []
      && forall i :: 0 <= i < |ParseStep1(text, extract).value| ==> Buildable(ParseStep1(text, extract).value[i])
    ensures ParseTrade(text, extract).Some? ==>
      ParseTrade(text, extract).value == Aggregate(ParseStep1(text, extract).value).value
  {
    var step := ParseStep1(text, extract);
    if step.Ok? {
      var ts := step.value;
      if Aggregate(ts).Ok? {
        ValidateAggregateNonEmpty(ts);
      }
    }
  }

  /** An active aggregation of canonical transfers is well formed: sorted by team,
      counted, with canonical team codes and clean picks. */
  lemma AcceptedWellFormed(ts: seq<Transfer>)
    requires forall i :: 0 <= i < |ts| ==> Canonical(ts[i])
    requires Aggregate(ts).Ok? && HasActivity(Aggregate(ts).value)
    ensures WellFormedTrade(Aggregate(ts).value)
  {
    var trade := Aggregate(ts).value;
    PartiesAreCodes(ts);
    forall i | 0 <= i < |trade.teams|
      ensures IsCode(trade.teams[i].team)
      ensures forall a :: a in trade.teams[i].sent ==> CleanAsset(a)
      ensures forall a :: a in trade.teams[i].acquired ==> CleanAsset(a)
    {
      assert trade.teams[i].team == TeamNamesOf(trade)[i];
      SentByClean(ts, trade.teams[i].team);
      AcquiredByClean(ts, trade.teams[i].team);
    }
  }

  /** After normalisation the fallback owner of line 294 never fires: a pick with a year
      and a round is built with exactly the owner the normalisation wrote, which is the
      normalised sender when the reply named none. */
  lemma OwnerFallbackAgrees(t: Transfer)
    requires t.asset.kind == PickKind && t.asset.year.Some? && t.asset.round.Some?
    ensures var n := NormalizeTransfer(t);
      && n.asset.team.Some?
      && Materialise(n) == Ok(Some(Pick(t.asset.year.value, t.asset.round.value, n.asset.team.value)))
      && (!Truthy(t.asset.team) ==> n.asset.team.value == Normalize(t.fromTeam))
  {
    var n := NormalizeTransfer(t);
    NormalizeTransferSound(t);
    MaterialiseSpec(n);
  }

  /** A pick whose year is missing passes the repair pass but cannot be built, so the
      whole paragraph yields nothing. */
  lemma PickWithoutYearRejected(text: string, extract: Extractor, i: int)
    requires ParseStep1(text, extract).Ok?
    requires 0 <= i < |ParseStep1(text, extract).value|
    requires ParseStep1(text, extract).value[i].asset.kind == PickKind
    requires ParseStep1(text, extract).value[i].asset.year.None?
    ensures ParseTrade(text, extract).None?
  {
    ParseTradeAccepts(text, extract);
  }
}

=== FILE: preprocess.dfy ===
/**
 * The clause preprocessor of trade_graph_builder.py (`preprocess_trade_text`):
 * a raw trade paragraph becomes a list of cleaned clauses, one per
 * semicolon-separated segment that is still longer than ten characters.
 */
module Preprocess {
  import opened Results
  import opened Strings
  import opened Words

  const TradeException: string := "trade exception"
  const Conditional: string := "conditional"
  /** The pattern written at line 89: in a regular expression `\t` is a TAB, so it
      searches for TAB followed by "rade exception", with only a trailing `\b`. */
  const TabTradeException: string := ['\t'] + "rade exception"
  const Preamble: string := "In a "
  const TeamTrade: string := "-team trade"

  // ---------------------------------------------------------------------------
  // Parentheticals
  // ---------------------------------------------------------------------------

  /** No '(' is followed, anywhere later, by a ')'. */
  ghost predicate ParenOrdered(s: string) {
    forall i, j :: 0 <= i < j < |s| ==> !(s[i] == '(' && s[j] == ')')
  }

  function FirstIndex(s: string, c: char): (i: nat)
    requires c in s
    ensures i < |s| && s[i] == c
    ensures forall k :: 0 <= k < i ==> s[k] != c
  {
    if s[0] == c then 0 else 1 + FirstIndex(s[1..], c)
  }

  /** `re.sub(r'\([^)]*\)', '', s)`: scanning left to right, each '(' that has a ')'
      somewhere after it is deleted together with everything up to and including
      the first such ')'; a '(' with no ')' after it is kept. */
  function StripParens(s: string): (r: string)
    ensures ')' in r ==> ')' in s
    ensures ParenOrdered(r)
    decreases |s|
  {
    if s == [] then []
    else if s[0] == '(' && ')' in s[1..] then
      var j := FirstIndex(s, ')');
      assert s == s[..j + 1] + s[j + 1..];
      StripParens(s[j + 1..])
    else
      var rest := StripParens(s[1..]);
      assert s == [s[0]] + s[1..];
      assert s[0] == '(' ==> ')' !in rest;
      ConsOrdered(s[0], rest);
      [s[0]] + rest
  }

  /** Removing parentheticals only deletes characters. */
  lemma {:induction false} StripParensDeletes(s: string)
    ensures multiset(StripParens(s)) <= multiset(s)
    decreases |s|
  {
    if s != [] {
      assert s == [s[0]] + s[1..];
      if s[0] == '(' && ')' in s[1..] {
        var j := FirstIndex(s, ')');
        assert s == s[..j + 1] + s[j + 1..];
        StripParensDeletes(s[j + 1..]);
      } else {
        StripParensDeletes(s[1..]);
      }
    }
  }

  lemma ConsOrdered(x: char, s: string)
    requires ParenOrdered(s) && (x == '(' ==> ')' !in s)
    ensures ParenOrdered([x] + s)
  {
    var t := [x] + s;
    forall i, j | 0 <= i < j < |t| && t[i] == '('
      ensures t[j] != ')'
    {
      if i > 0 {
        assert t[i] == s[i - 1] && t[j] == s[j - 1];
      } else {
        assert t[j] == s[j - 1];
      }
    }
  }

  /** A string whose parentheses are already ordered is left alone, so stripping
      parentheticals twice is the same as stripping them once. */
  lemma {:induction false} StripParensFixpoint(s: string)
    requires ParenOrdered(s)
    ensures StripParens(s) == s
    decreases |s|
  {
    if s != [] {
      if s[0] == '(' && ')' in s[1..] {
        assert false;
      }
      OrderedSlice(s, 1, |s|);
      assert s[1..|s|] == s[1..];
      StripParensFixpoint(s[1..]);
      assert s == [s[0]] + s[1..];
    }
  }

  lemma StripParensIdempotent(s: string)
    ensures StripParens(StripParens(s)) == StripParens(s)
  {
    StripParensFixpoint(StripParens(s));
  }

  /** Text before the first '(' is kept as it is. */
  lemma {:induction false} StripParensKeepsPrefix(x: string, s: string)
    requires '(' !in x
    ensures StripParens(x + s) == x + StripParens(s)
    decreases |x|
  {
    if x == [] {
      assert x + s == s;
    } else {
      assert (x + s)[0] == x[0];
      assert (x + s)[1..] == x[1..] + s;
      StripParensKeepsPrefix(x[1..], s);
      assert x == [x[0]] + x[1..];
    }
  }

  /** A '(' together with everything up to the first ')' after it is deleted, and the
      text after that ')' is processed on its own. */
  lemma StripParensDropsSpan(b: string, s: string)
    requires ')' !in b
    ensures StripParens("(" + b + ")" + s) == StripParens(s)
  {
    var t := "(" + b + ")" + s;
    var n := |b| + 1;
    assert t[n] == ')' && t[1..][n - 1] == ')';
    assert forall k :: 1 <= k < n ==> t[k] == b[k - 1];
    var j := FirstIndex(t, ')');
    assert j == n;
    assert t[j + 1..] == s;
  }

  /** One parenthetical between plain text: "a (b) c" becomes "a  c", both spaces kept. */
  lemma StripParensOneSpan(x: string, b: string, y: string)
    requires '(' !in x && ')' !in b && '(' !in y
    ensures StripParens(x + "(" + b + ")" + y) == x + y
  {
    var span := "(" + b + ")" + y;
    assert x + "(" + b + ")" + y == x + span;
    StripParensKeepsPrefix(x, span);
    StripParensDropsSpan(b, y);
    StripParensKeepsPrefix(y, []);
    assert y + [] == y;
  }

  lemma OrderedSlice(s: string, i: int, j: int)
    requires ParenOrdered(s) && 0 <= i <= j <= |s|
    ensures ParenOrdered(s[i..j])
  {
    var t := s[i..j];
    forall a, b | 0 <= a < b < |t|
      ensures !(t[a] == '(' && t[b] == ')')
    {
      assert t[a] == s[i + a] && t[b] == s[i + b];
    }
  }

  lemma OrderedStrip(s: string)
    requires ParenOrdered(s)
    ensures ParenOrdered(Strip(s))
  {
    OrderedSlice(s, StripLo(s), StripHi(s));
  }

  lemma OrderedConcat(a: string, b: string)
    ensures ParenOrdered(a + b) <==> ParenOrdered(a) && ParenOrdered(b) && !('(' in a && ')' in b)
  {
    var t := a + b;
    if ParenOrdered(t) {
      OrderedSlice(t, 0, |a|);
      OrderedSlice(t, |a|, |t|);
      assert t[0..|a|] == a && t[|a|..|t|] == b;
    }
    if ParenOrdered(a) && ParenOrdered(b) && !('(' in a && ')' in b) {
      forall i, j | 0 <= i < j < |t| && t[i] == '('
        ensures t[j] != ')'
      {
        if j < |a| {
          assert a[i] == t[i] && a[j] == t[j];
        } else if i >= |a| {
          assert b[i - |a|] == t[i] && b[j - |a|] == t[j];
        } else {
          assert a[i] == t[i] && b[j - |a|] == t[j];
        }
      }
    }
  }

  // ---------------------------------------------------------------------------
  // Lists of pieces joined by a separator free of parentheses
  // ---------------------------------------------------------------------------

  predicate AnyHas(xs: seq<string>, c: char) {
    exists k :: 0 <= k < |xs| && c in xs[k]
  }

  /** The pieces, read in order, never put a '(' before a ')'. */
  ghost predicate PiecesOrdered(xs: seq<string>)
    decreases |xs|
  {
    xs == [] || (ParenOrdered(xs[0]) && !('(' in xs[0] && AnyHas(xs[1..], ')')) && PiecesOrdered(xs[1..]))
  }

  predicate ParenFree(s: string) {
    '(' !in s && ')' !in s
  }

  lemma {:induction false} JoinHas(xs: seq<string>, sep: string, c: char)
    requires c !in sep
    ensures c in Join(xs, sep) <==> AnyHas(xs, c)
    decreases |xs|
  {
    if |xs| > 1 {
      JoinHas(xs[1..], sep, c);
      assert Join(xs, sep) == xs[0] + sep + Join(xs[1..], sep);
      if AnyHas(xs[1..], c) {
        var k :| 0 <= k < |xs[1..]| && c in xs[1..][k];
        assert c in xs[k + 1];
      }
      if AnyHas(xs, c) && c !in xs[0] {
        var k :| 0 <= k < |xs| && c in xs[k];
        assert c in xs[1..][k - 1];
      }
    }
  }

  lemma {:induction false} JoinOrdered(xs: seq<string>, sep: string)
    requires ParenFree(sep)
    ensures ParenOrdered(Join(xs, sep)) <==> PiecesOrdered(xs)
    decreases |xs|
  {
    if |xs| == 1 {
      assert xs[1..] == [];
    } else if |xs| > 1 {
      var rest := Join(xs[1..], sep);
      JoinOrdered(xs[1..], sep);
      JoinHas(xs[1..], sep, ')');
      assert Join(xs, sep) == xs[0] + (sep + rest);
      OrderedConcat(xs[0], sep + rest);
      OrderedConcat(sep, rest);
      OrderedSlice(sep, 0, |sep|);
      assert ParenOrdered(sep) by {
        forall i, j | 0 <= i < j < |sep| ensures !(sep[i] == '(' && sep[j] == ')') {
          assert sep[i] in sep;
        }
      }
    }
  }

  lemma {:induction false} PiecesOrderedEach(xs: seq<string>, k: int)
    requires PiecesOrdered(xs) && 0 <= k < |xs|
    ensures ParenOrdered(xs[k])
    decreases k
  {
    if k > 0 {
      PiecesOrderedEach(xs[1..], k - 1);
    }
  }

  // ---------------------------------------------------------------------------
  // Sentences (lines 85-87)
  // ---------------------------------------------------------------------------

  /** `[s.strip() for s in parts if s.strip()]`, then dropping every sentence that
      contains the word-bounded phrase "trade exception" (any case). */
  function CleanSentences(parts: seq<string>): (r: seq<string>)
    ensures |r| <= |parts|
    ensures forall k :: 0 <= k < |r| ==> r[k] != [] && !IsSpace(r[k][0]) && FreeOf(r[k], TradeException)
    ensures (forall k :: 0 <= k < |parts| ==> '.' !in parts[k]) ==> forall k :: 0 <= k < |r| ==> '.' !in r[k]
    decreases |parts|
  {
    if parts == [] then []
    else
      var t := Strip(parts[0]);
      var rest := CleanSentences(parts[1..]);
      assert forall k :: 1 <= k < |parts| ==> parts[1..][k - 1] == parts[k];
      if t != [] && Find(t, TradeException, true, 0).None? then
        FindNoneIsFree(t, TradeException);
        [t] + rest
      else rest
  }

  /** A part survives as a sentence when, stripped, it is non-empty and free of the
      word-bounded phrase "trade exception". */
  ghost predicate SentenceKept(p: string) {
    Strip(p) != [] && FreeOf(Strip(p), TradeException)
  }

  /** One part gives its stripped self when it survives and nothing otherwise. */
  lemma CleanSentencesOne(p: string)
    ensures CleanSentences([p]) == if SentenceKept(p) then [Strip(p)] else []
  {
    var one: seq<string> := [p];
    assert one[1..] == [];
    FindNoneIsFree(Strip(p), TradeException);
  }

  /** The cleaning is an order-preserving filter-and-strip: it distributes over
      concatenation, so with `CleanSentencesOne` every surviving part appears, stripped,
      in its original order. */
  lemma {:induction false} CleanSentencesAppend(a: seq<string>, b: seq<string>)
    ensures CleanSentences(a + b) == CleanSentences(a) + CleanSentences(b)
    decreases |a|
  {
    if a == [] {
      assert a + b == b;
    } else {
      assert (a + b)[0] == a[0];
      assert (a + b)[1..] == a[1..] + b;
      CleanSentencesAppend(a[1..], b);
    }
  }

  /** Every surviving part is among the sentences. */
  lemma {:induction false} CleanSentencesKeeps(parts: seq<string>, q: int)
    requires 0 <= q < |parts| && SentenceKept(parts[q])
    ensures Strip(parts[q]) in CleanSentences(parts)
    decreases |parts|
  {
    FindNoneIsFree(Strip(parts[q]), TradeException);
    if q > 0 {
      assert parts[1..][q - 1] == parts[q];
      CleanSentencesKeeps(parts[1..], q - 1);
    }
  }

  lemma {:induction false} CleanSentencesOrdered(parts: seq<string>)
    requires PiecesOrdered(parts)
    ensures PiecesOrdered(CleanSentences(parts))
    decreases |parts|
  {
    if parts != [] {
      var t := Strip(parts[0]);
      var rest := CleanSentences(parts[1..]);
      CleanSentencesOrdered(parts[1..]);
      if t != [] && Find(t, TradeException, true, 0).None? {
        var r := [t] + rest;
        assert r[1..] == rest;
        OrderedStrip(parts[0]);
        assert '(' in t ==> '(' in parts[0];
        if AnyHas(rest, ')') {
          CleanSentencesHas(parts[1..], ')');
        }
      }
    }
  }

  lemma {:induction false} CleanSentencesHas(parts: seq<string>, c: char)
    requires AnyHas(CleanSentences(parts), c)
    ensures AnyHas(parts, c)
    decreases |parts|
  {
    var t := Strip(parts[0]);
    var rest := CleanSentences(parts[1..]);
    if t != [] && Find(t, TradeException, true, 0).None? {
      var r := [t] + rest;
      var k :| 0 <= k < |r| && c in r[k];
      if k == 0 {
        assert c in parts[0];
      } else {
        assert c in rest[k - 1];
        CleanSentencesHas(parts[1..], c);
        var q :| 0 <= q < |parts[1..]| && c in parts[1..][q];
        assert c in parts[q + 1];
      }
    } else {
      CleanSentencesHas(parts[1..], c);
      var q :| 0 <= q < |parts[1..]| && c in parts[1..][q];
      assert c in parts[q + 1];
    }
  }

  // ---------------------------------------------------------------------------
  // One clause (lines 77-94)
  // ---------------------------------------------------------------------------

  function DigitsEnd(s: string, i: nat): (e: nat)
    requires i <= |s|
    ensures i <= e <= |s|
    ensures forall q :: i <= q < e ==> IsDigit(s[q])
    ensures e < |s| ==> !IsDigit(s[e])
    decreases |s| - i
  {
    if i < |s| && IsDigit(s[i]) then DigitsEnd(s, i + 1) else i
  }

  /** Length of the metadata prefix `^In a \d+-team trade,?\s*` (0 when absent). */
  function PreambleLength(c: string): (k: nat)
    ensures k <= |c|
    ensures k > 0 ==> 17 <= k && c[..5] == Preamble && IsDigit(c[5])
  {
    if Preamble <= c then
      var d := DigitsEnd(c, 5);
      if d > 5 && TeamTrade <= c[d..] then
        var e := d + |TeamTrade|;
        var e2 := if e < |c| && c[e] == ',' then e + 1 else e;
        e2 + StripLo(c[e2..])
      else 0
    else 0
  }

  /** `DigitsEnd` stops exactly where the digit run ends. */
  lemma DigitsEndIs(s: string, i: nat, e: nat)
    requires i <= e <= |s|
    requires forall q :: i <= q < e ==> IsDigit(s[q])
    requires e < |s| ==> !IsDigit(s[e])
    ensures DigitsEnd(s, i) == e
  {
  }

  /** `StripLo` skips exactly a leading run of whitespace. */
  lemma StripLoIs(ws: string, rest: string)
    requires forall q :: 0 <= q < |ws| ==> IsSpace(ws[q])
    requires rest == [] || !IsSpace(rest[0])
    ensures StripLo(ws + rest) == |ws|
  {
    var s := ws + rest;
    assert forall q :: 0 <= q < |ws| ==> s[q] == ws[q];
    assert |ws| < |s| ==> s[|ws|] == rest[0];
  }

  /** What follows "-team trade": the optional comma and the whitespace before `rest`. */
  lemma AfterTeamTrade(c: string, e: nat, comma: string, ws: string, rest: string)
    requires e <= |c| && c[e..] == comma + ws + rest
    requires comma == [] || comma == [',']
    requires forall q :: 0 <= q < |ws| ==> IsSpace(ws[q])
    requires rest == [] || !IsSpace(rest[0])
    requires comma == [] && ws == [] && rest != [] ==> rest[0] != ','
    ensures var e2 := if e < |c| && c[e] == ',' then e + 1 else e;
      e2 == e + |comma| && e2 + StripLo(c[e2..]) == e2 + |ws| && c[e2 + |ws|..] == rest
  {
    var e2 := e + |comma|;
    assert c[e2..] == ws + rest;
    StripLoIs(ws, rest);
    assert c[e2 + |ws|..] == rest;
  }

  /** The prefix is found once the digits end at `d` and "-team trade" follows. */
  lemma PreambleAt(c: string, d: nat, comma: string, ws: string, rest: string)
    requires Preamble <= c && 5 < d <= |c|
    requires forall q :: 5 <= q < d ==> IsDigit(c[q])
    requires TeamTrade <= c[d..] && c[d + |TeamTrade|..] == comma + ws + rest
    requires comma == [] || comma == [',']
    requires forall q :: 0 <= q < |ws| ==> IsSpace(ws[q])
    requires rest == [] || !IsSpace(rest[0])
    requires comma == [] && ws == [] && rest != [] ==> rest[0] != ','
    ensures PreambleLength(c) == d + |TeamTrade| + |comma| + |ws|
    ensures c[PreambleLength(c)..] == rest
  {
    assert c[d] == c[d..][0] == TeamTrade[0];
    DigitsEndIs(c, 5, d);
    AfterTeamTrade(c, d + |TeamTrade|, comma, ws, rest);
  }

  /** A clause that starts with the metadata prefix (digits, "-team trade", an optional
      comma, then whitespace) loses exactly that prefix. */
  lemma PreambleRemoved(ds: string, comma: string, ws: string, rest: string)
    requires ds != [] && forall q :: 0 <= q < |ds| ==> IsDigit(ds[q])
    requires comma == [] || comma == [',']
    requires forall q :: 0 <= q < |ws| ==> IsSpace(ws[q])
    requires rest == [] || !IsSpace(rest[0])
    requires comma == [] && ws == [] && rest != [] ==> rest[0] != ','
    ensures var c := Preamble + ds + TeamTrade + comma + ws + rest;
      && PreambleLength(c) == |Preamble| + |ds| + |TeamTrade| + |comma| + |ws|
      && c[PreambleLength(c)..] == rest
  {
    var after := comma + ws + rest;
    var tail := TeamTrade + after;
    var c := Preamble + ds + TeamTrade + comma + ws + rest;
    assert c == Preamble + (ds + tail);
    var d := |Preamble| + |ds|;
    assert c[d..] == tail;
    assert c[d + |TeamTrade|..] == after;
    PreambleAt(c, d, comma, ws, rest);
  }

  /** The prefix needs a digit right after "In a ", so "In an ..." is left whole. */
  lemma NoPreambleForAn(c: string)
    requires |c| >= 6 && c[..6] == "In an "
    ensures PreambleLength(c) == 0
  {
    assert c[5] == "In an "[5];
  }

  /** The prefix is cut exactly when the clause starts "In a ", a run of digits, then
      "-team trade"; every other clause is left whole. */
  lemma PreambleShape(c: string)
    ensures PreambleLength(c) > 0 <==>
      && Preamble <= c
      && exists d :: 5 < d <= |c| && (forall q :: 5 <= q < d ==> IsDigit(c[q])) && TeamTrade <= c[d..]
  {
    if Preamble <= c {
      var e := DigitsEnd(c, 5);
      if e > 5 && TeamTrade <= c[e..] {
        assert 5 < e <= |c| && (forall q :: 5 <= q < e ==> IsDigit(c[q])) && TeamTrade <= c[e..];
      }
      forall d | 5 < d <= |c| && (forall q :: 5 <= q < d ==> IsDigit(c[q])) && TeamTrade <= c[d..]
        ensures PreambleLength(c) > 0
      {
        assert c[d] == c[d..][0] == TeamTrade[0];
        DigitsEndIs(c, 5, d);
      }
    }
  }

  /** The clause a `;`-segment becomes before the length filter: the preamble
      removed, sentences cleaned and rejoined with ". ", then cut at the first
      word "conditional" and at the TAB pattern of line 89. Both match positions are
      taken on the rejoined clause (lines 88-89), and the second is applied to the
      already-shortened clause, as Python's clamping slice does. */
  function CleanClause(seg: string): string {
    var c := Rejoined(seg);
    TabCut(c, ConditionalCut(c))
  }

  /** Lines 80 and 85-87: preamble dropped, sentences cleaned and rejoined with ". ". */
  function Rejoined(seg: string): string {
    Join(CleanSentences(Split(seg[PreambleLength(seg)..], '.')), ". ")
  }

  /** Lines 88 and 90-91: cut at the first word-bounded "conditional", then strip. */
  function ConditionalCut(c: string): string {
    var cond := Find(c, Conditional, true, 0);
    if cond.Some? then Strip(c[..cond.value]) else c
  }

  /** Lines 89 and 92-93: the TAB pattern's position in the rejoined clause `c`,
      applied to the already cut clause `c2` (a slice past its end takes all of it). */
  function TabCut(c: string, c2: string): string {
    var te := Find(c, TabTradeException, false, 0);
    if te.Some? then Strip(c2[..Min(te.value, |c2|)]) else c2
  }

  /** The stripped `;`-segments of the paragraph once parentheticals are gone. */
  function Segments(text: string): seq<string> {
    var parts := Split(StripParens(text), ';');
    seq(|parts|, i requires 0 <= i < |parts| => Strip(parts[i]))
  }

  /** There is one segment more than there are semicolons left after line 74. */
  lemma SegmentsCount(text: string)
    ensures |Segments(text)| == multiset(StripParens(text))[';'] + 1
  {
    SplitCount(StripParens(text), ';');
  }

  /** Line 96: keep clauses longer than ten characters, then trim trailing periods. */
  function Finish(cs: seq<string>): (r: seq<string>)
    ensures |r| <= |cs|
    ensures forall k :: 0 <= k < |r| ==> KeptFrom(r[k], cs)
    decreases |cs|
  {
    if cs == [] then []
    else
      var rest := Finish(cs[1..]);
      FinishShift(cs, rest);
      if |cs[0]| > 10 then [RStripDots(cs[0])] + rest else rest
  }

  /** `r` is what line 96 keeps of some clause in `cs` longer than ten characters. */
  ghost predicate KeptFrom(r: string, cs: seq<string>) {
    exists q :: 0 <= q < |cs| && |cs[q]| > 10 && r == RStripDots(cs[q])
  }

  lemma FinishShift(cs: seq<string>, rest: seq<string>)
    requires cs != []
    requires forall k :: 0 <= k < |rest| ==> KeptFrom(rest[k], cs[1..])
    ensures forall k :: 0 <= k < |rest| ==> KeptFrom(rest[k], cs)
  {
    forall k | 0 <= k < |rest|
      ensures KeptFrom(rest[k], cs)
    {
      var q :| 0 <= q < |cs[1..]| && |cs[1..][q]| > 10 && rest[k] == RStripDots(cs[1..][q]);
      assert cs[1..][q] == cs[q + 1];
    }
  }

  /** One clause is kept, with its trailing periods trimmed, exactly when it is longer
      than ten characters. */
  lemma FinishOne(c: string)
    ensures Finish([c]) == if |c| > 10 then [RStripDots(c)] else []
  {
    var one: seq<string> := [c];
    assert one[1..] == [];
  }

  /** The length filter is order preserving: it distributes over concatenation. */
  lemma {:induction false} FinishAppend(a: seq<string>, b: seq<string>)
    ensures Finish(a + b) == Finish(a) + Finish(b)
    decreases |a|
  {
    if a == [] {
      assert a + b == b;
    } else {
      assert (a + b)[0] == a[0];
      assert (a + b)[1..] == a[1..] + b;
      FinishAppend(a[1..], b);
    }
  }

  /** Every clause longer than ten characters is kept, trimmed. */
  lemma {:induction false} FinishKeeps(cs: seq<string>, q: int)
    requires 0 <= q < |cs| && |cs[q]| > 10
    ensures RStripDots(cs[q]) in Finish(cs)
    decreases |cs|
  {
    if q > 0 {
      assert cs[1..][q - 1] == cs[q];
      FinishKeeps(cs[1..], q - 1);
    }
  }

  lemma FinishKeepsAll(cs: seq<string>)
    ensures forall q :: 0 <= q < |cs| && |cs[q]| > 10 ==> RStripDots(cs[q]) in Finish(cs)
  {
    forall q | 0 <= q < |cs| && |cs[q]| > 10
      ensures RStripDots(cs[q]) in Finish(cs)
    {
      FinishKeeps(cs, q);
    }
  }

  /** The length is tested before the periods are trimmed: ten characters and a final
      period survive, and come back only ten characters long. */
  lemma FilterBeforeTrim(c: string)
    requires |c| == 11 && c[10] == '.' && c[9] != '.'
    ensures Finish([c]) == [c[..10]]
    ensures |Finish([c])[0]| == 10
  {
    FinishOne(c);
    assert DotEnd(c, 11) == 10;
  }

  lemma FilterBeforeTrimExample()
    ensures Finish(["abcdefghij."]) == ["abcdefghij"]
  {
    FilterBeforeTrim("abcdefghij.");
    assert "abcdefghij."[..10] == "abcdefghij";
  }

  function CleanedSegments(text: string): (cs: seq<string>)
    ensures |cs| == |Segments(text)|
  {
    var segs := Segments(text);
    seq(|segs|, i requires 0 <= i < |segs| => CleanClause(segs[i]))
  }

  /** `preprocess_trade_text`. At most one clause per `;` plus one; every clause is the
      trimmed form of a cleaned segment longer than ten characters and has the clean
      shape; and every such segment's trimmed form is among the clauses. */
  function Clauses(text: string): (r: seq<string>)
    ensures |r| <= multiset(text)[';'] + 1
    ensures forall k :: 0 <= k < |r| ==> KeptFrom(r[k], CleanedSegments(text)) && CleanShape(r[k])
    ensures forall q :: 0 <= q < |CleanedSegments(text)| && |CleanedSegments(text)[q]| > 10 ==>
      RStripDots(CleanedSegments(text)[q]) in r
  {
    FinishedSound(text);
    FinishKeepsAll(CleanedSegments(text));
    Finish(CleanedSegments(text))
  }

  // ---------------------------------------------------------------------------
  // What every returned clause satisfies
  // ---------------------------------------------------------------------------

  /** The shape line 96 leaves a clause in: parentheses ordered, no word-bounded
      "conditional" or "trade exception" in any case, no trailing period. */
  ghost predicate CleanShape(r: string) {
    && ParenOrdered(r)
    && FreeOf(r, Conditional)
    && FreeOf(r, TradeException)
    && (r == [] || r[|r| - 1] != '.')
  }

  lemma FinishedSound(text: string)
    ensures |Finish(CleanedSegments(text))| <= multiset(text)[';'] + 1
    ensures forall k :: 0 <= k < |Finish(CleanedSegments(text))| ==> CleanShape(Finish(CleanedSegments(text))[k])
  {
    var r := Finish(CleanedSegments(text));
    var cs := CleanedSegments(text);
    var segs := Segments(text);
    var t1 := StripParens(text);
    StripParensDeletes(text);
    SegmentsCount(text);
    var parts := Split(t1, ';');
    SplitJoin(t1, ';');
    JoinOrdered(parts, [';']);
    forall k | 0 <= k < |r|
      ensures CleanShape(r[k])
    {
      var q :| 0 <= q < |cs| && |cs[q]| > 10 && r[k] == RStripDots(cs[q]);
      PiecesOrderedEach(parts, q);
      OrderedStrip(parts[q]);
      assert segs[q] == Strip(parts[q]);
      CleanClauseSound(segs[q]);
      TrimDotsSound(cs[q]);
    }
  }

  lemma TrimDotsSound(c: string)
    requires ParenOrdered(c) && FreeOf(c, Conditional) && FreeOf(c, TradeException)
    ensures CleanShape(RStripDots(c))
  {
    var e := DotEnd(c, |c|);
    PatternsAreWords();
    OrderedSlice(c, 0, e);
    FreeOfSlice(c, Conditional, 0, e);
    FreeOfSlice(c, TradeException, 0, e);
    assert c[0..e] == c[..e];
  }

  lemma PatternsAreWords()
    ensures WordPattern(Conditional) && WordPattern(TradeException)
    ensures forall k :: 0 <= k < |TradeException| ==> TradeException[k] != '.'
  {
  }

  lemma JoinStartsWithHead(xs: seq<string>, sep: string)
    requires xs != []
    ensures xs[0] <= Join(xs, sep)
  {
  }

  /** A cleaned segment keeps ordered parentheses and contains neither word. */
  lemma CleanClauseSound(seg: string)
    requires ParenOrdered(seg)
    ensures ParenOrdered(CleanClause(seg))
    ensures FreeOf(CleanClause(seg), Conditional) && FreeOf(CleanClause(seg), TradeException)
  {
    var c := Rejoined(seg);
    RejoinedSound(seg);
    ConditionalCutSound(c);
    TabCutSound(c, ConditionalCut(c));
  }

  lemma RejoinedSound(seg: string)
    requires ParenOrdered(seg)
    ensures ParenOrdered(Rejoined(seg)) && FreeOf(Rejoined(seg), TradeException)
    ensures Rejoined(seg) == [] || !IsSpace(Rejoined(seg)[0])
  {
    PatternsAreWords();
    var pl := PreambleLength(seg);
    var c0 := seg[pl..];
    OrderedSlice(seg, pl, |seg|);
    assert seg[pl..|seg|] == c0;
    var parts := Split(c0, '.');
    SplitJoin(c0, '.');
    JoinOrdered(parts, ['.']);
    var sents := CleanSentences(parts);
    CleanSentencesOrdered(parts);
    JoinOrdered(sents, ". ");
    FreeOfJoin(sents, TradeException);
    if sents != [] {
      JoinStartsWithHead(sents, ". ");
    }
  }

  lemma ConditionalCutSound(c: string)
    requires ParenOrdered(c) && FreeOf(c, TradeException)
    requires c == [] || !IsSpace(c[0])
    ensures ConditionalCut(c) <= c
    ensures ParenOrdered(ConditionalCut(c))
    ensures FreeOf(ConditionalCut(c), Conditional) && FreeOf(ConditionalCut(c), TradeException)
  {
    PatternsAreWords();
    var cond := Find(c, Conditional, true, 0);
    if cond.Some? {
      var cs := cond.value;
      FreeBeforeFirst(c, Conditional);
      assert c[0..cs] == c[..cs];
      FreeOfSlice(c, TradeException, 0, cs);
      OrderedSlice(c, 0, cs);
      var pre := c[..cs];
      FreeOfStrip(pre, Conditional);
      FreeOfStrip(pre, TradeException);
      OrderedStrip(pre);
      assert StripLo(pre) == 0;
    } else {
      FindNoneIsFree(c, Conditional);
    }
  }

  /** A clause without the word "conditional" is left unchanged; otherwise it is cut at
      the first word-bounded, case-insensitive hit and stripped. */
  lemma ConditionalCutAt(c: string)
    ensures FreeOf(c, Conditional) ==> ConditionalCut(c) == c
    ensures forall i :: HitAt(c, Conditional, true, i) && (forall j :: 0 <= j < i ==> !HitAt(c, Conditional, true, j)) ==>
      ConditionalCut(c) == Strip(c[..i])
  {
  }

  lemma TabCutSound(c: string, c2: string)
    requires c2 <= c
    requires ParenOrdered(c2) && FreeOf(c2, Conditional) && FreeOf(c2, TradeException)
    ensures ParenOrdered(TabCut(c, c2))
    ensures FreeOf(TabCut(c, c2), Conditional) && FreeOf(TabCut(c, c2), TradeException)
  {
    PatternsAreWords();
    var te := Find(c, TabTradeException, false, 0);
    if te.Some? {
      var k := Min(te.value, |c2|);
      if k < |c2| {
        MatchedChar(c, TabTradeException, te.value, 0);
        assert c2[k] == c[te.value] == '\t';
      }
      FreeOfSlice(c2, Conditional, 0, k);
      FreeOfSlice(c2, TradeException, 0, k);
      OrderedSlice(c2, 0, k);
      assert c2[0..k] == c2[..k];
      FreeOfStrip(c2[..k], Conditional);
      FreeOfStrip(c2[..k], TradeException);
      OrderedStrip(c2[..k]);
    }
  }

  // ---------------------------------------------------------------------------
  // Clauses can grow
  // ---------------------------------------------------------------------------

  /** A sentence with no whitespace at its ends and none of the characters the
      preprocessor splits or cuts on. */
  predicate PlainSentence(s: string) {
    s != [] && !IsSpace(s[0]) && !IsSpace(s[|s| - 1]) && '(' !in s && ';' !in s && '.' !in s && '\t' !in s
  }

  /** A segment with no parenthesis, no semicolon and no whitespace at its ends is the
      only segment of its paragraph. */
  lemma SegmentsOfPlain(s: string)
    requires s != [] && !IsSpace(s[0]) && !IsSpace(s[|s| - 1]) && '(' !in s && ';' !in s
    ensures Segments(s) == [s]
  {
    assert StripParens(s) == s by {
      StripParensFixpoint(s);
    }
    SplitWithout(s, ';');
    StripKeeps(s);
  }

  /** Without a TAB in the clause, the cut of line 93 never happens. */
  lemma NoTabNoCut(c: string, c2: string)
    requires '\t' !in c
    ensures TabCut(c, c2) == c2
  {
    if Find(c, TabTradeException, false, 0).Some? {
      var i := Find(c, TabTradeException, false, 0).value;
      MatchedChar(c, TabTradeException, i, 0);
      assert false;
    }
  }

  /** When the TAB pattern occurs in the rejoined clause, the cut clause is cut again at
      its first occurrence (clamped to the cut clause's length) and stripped. */
  lemma TabCutAt(c: string, c2: string)
    ensures forall i :: HitAt(c, TabTradeException, false, i) && (forall j :: 0 <= j < i ==> !HitAt(c, TabTradeException, false, j)) ==>
      TabCut(c, c2) == Strip(c2[..Min(i, |c2|)])
  {
  }

  /** Text with no TAB before the pattern is cut right where the pattern starts. */
  lemma TabCutAfter(x: string, y: string)
    requires '\t' !in x
    requires y == [] || !IsWordChar(y[0])
    ensures var c := x + TabTradeException + y; TabCut(c, c) == Strip(x)
  {
    var p := TabTradeException;
    var c := x + p + y;
    assert p[0] == '\t' && forall k :: 0 <= k < |p| ==> LowerChar(p[k]) == p[k];
    HitAtSeam(x, p, y);
    NoHitBefore(x, p + y, p);
    assert c == x + (p + y);
    assert c[..|x|] == x;
    TabCutAt(c, c);
  }

  /** A lower-case literal placed after `x` and followed by a non-word character (or
      nothing) is a hit there, without a leading boundary. */
  lemma HitAtSeam(x: string, p: string, y: string)
    requires forall k :: 0 <= k < |p| ==> LowerChar(p[k]) == p[k]
    requires y == [] || !IsWordChar(y[0])
    ensures HitAt(x + p + y, p, false, |x|)
  {
    var c := x + p + y;
    assert forall k :: 0 <= k < |p| ==> c[|x| + k] == p[k];
    assert |x| + |p| < |c| ==> c[|x| + |p|] == y[0];
  }

  /** A pattern that starts with a TAB cannot match inside TAB-free text. */
  lemma NoHitBefore(x: string, rest: string, p: string)
    requires '\t' !in x && p != [] && p[0] == '\t'
    ensures forall j :: 0 <= j < |x| ==> !HitAt(x + rest, p, false, j)
  {
    var c := x + rest;
    forall j | 0 <= j < |x| && HitAt(c, p, false, j)
      ensures false
    {
      MatchedChar(c, p, j, 0);
    }
  }

  /** "abc", TAB, "rade exception x" is cut back to "abc". */
  lemma TabCutExample()
    ensures var c := "abc" + TabTradeException + " x"; TabCut(c, c) == "abc"
  {
    TabCutAfter("abc", " x");
    assert StripLo("abc") == 0 && StripHi("abc") == 3;
    assert "abc"[0..3] == "abc";
  }

  /** Two plain sentences joined by a bare period are rejoined with ". ". */
  lemma RejoinedPlain(a: string, b: string)
    requires PlainSentence(a) && PlainSentence(b) && a[0] != 'I'
    requires FreeOf(a, TradeException) && FreeOf(b, TradeException)
    ensures Rejoined(a + ['.'] + b) == a + ". " + b
  {
    var s := a + ['.'] + b;
    assert PreambleLength(s) == 0 by {
      assert s[0] != Preamble[0];
    }
    assert s[0..] == s;
    assert Split(s, '.') == [a, b] by {
      SplitAround(a, b, '.');
      SplitWithout(b, '.');
    }
    assert CleanSentences([a, b]) == [a, b] by {
      StripKeeps(a);
      StripKeeps(b);
      FindNoneIsFree(a, TradeException);
      FindNoneIsFree(b, TradeException);
      assert [a, b][1..] == [b];
    }
    JoinCons(a, [b], ". ");
  }

  /** Two plain sentences joined by a bare period form one segment, which cleans to
      the two sentences joined by ". ". */
  lemma CleanedPlain(a: string, b: string)
    requires PlainSentence(a) && PlainSentence(b) && a[0] != 'I'
    requires FreeOf(a, TradeException) && FreeOf(b, TradeException)
    requires FreeOf(a + ". " + b, Conditional)
    ensures CleanedSegments(a + ['.'] + b) == [a + ". " + b]
  {
    var s := a + ['.'] + b;
    var c := a + ". " + b;
    assert Segments(s) == [s] by {
      assert s[0] == a[0] && s[|s| - 1] == b[|b| - 1];
      assert '(' !in s && ';' !in s;
      SegmentsOfPlain(s);
    }
    assert CleanClause(s) == c by {
      RejoinedPlain(a, b);
      assert ConditionalCut(c) == c by {
        FindNoneIsFree(c, Conditional);
      }
      assert '\t' !in c;
      NoTabNoCut(c, c);
    }
  }

  /** A single clause longer than ten characters without a trailing period is kept as is. */
  lemma FinishSingle(c: string)
    requires |c| > 10 && c[|c| - 1] != '.'
    ensures Finish([c]) == [c]
  {
    assert RStripDots(c) == c by {
      assert c[..|c|] == c;
    }
    var one: seq<string> := [c];
    assert one[1..] == [];
  }

  /** Two plain sentences joined by a bare period come back as one clause joined by
      ". ", one character longer than the paragraph. */
  lemma BarePeriodGrows(a: string, b: string)
    requires PlainSentence(a) && PlainSentence(b) && a[0] != 'I'
    requires FreeOf(a, TradeException) && FreeOf(b, TradeException)
    requires FreeOf(a + ". " + b, Conditional)
    requires |a| + |b| + 2 > 10
    ensures Clauses(a + ['.'] + b) == [a + ". " + b]
    ensures |a + ". " + b| == |a + ['.'] + b| + 1
  {
    var c := a + ". " + b;
    CleanedPlain(a, b);
    assert c[|c| - 1] == b[|b| - 1];
    FinishSingle(c);
  }
}

=== FILE: results.dfy ===
/** Failure-carrying wrappers shared by the whole model. */
module Results {

  /** A value that may be absent: Python's `None` versus a present value. */
  datatype Option<+T> = None | Some(value: T)

  /** The outcome of a step that may raise: the value, or the reason it failed. */
  datatype Result<+T, +E> = Ok(value: T) | Err(error: E)
}

=== FILE: scenarios.dfy ===
/**
 * Worked examples from the extraction prompt of trade_graph_builder.py (lines
 * 125-140), carried through the model.
 */
module Scenarios {
  import opened Results
  import opened TradeTypes
  import opened Extraction
  import opened Aggregation
  import opened StringOrder
  import opened TeamNames

  function PlayerSpec(name: string): AssetSpec {
    AssetSpec(PlayerKind, Some(name), None, None, None, None)
  }

  /** "Lakers traded Nunn to Wizards for Hachimura", after normalisation. */
  const NunnForHachimura: seq<Transfer> := [
    Transfer("LAL", "WAS", PlayerSpec("Kendrick Nunn")),
    Transfer("WAS", "LAL", PlayerSpec("Rui Hachimura"))]

  /** The swap gives each side one player sent and the other acquired, teams in order. */
  lemma NunnForHachimuraAggregates()
    ensures Aggregate(NunnForHachimura) == Ok(Trade(false, 2, [
      TeamEntry("LAL", [Player("Kendrick Nunn")], [Player("Rui Hachimura")]),
      TeamEntry("WAS", [Player("Rui Hachimura")], [Player("Kendrick Nunn")])]))
  {
    var ts := NunnForHachimura;
    assert Below("LAL", "WAS");
    assert Insert(Insert([], "LAL"), "WAS") == ["LAL", "WAS"];
    assert Insert(Insert(["LAL", "WAS"], "WAS"), "LAL") == ["LAL", "WAS"];
    assert Roster([], ts) == ["LAL", "WAS"] by {
      assert ts[1..][1..] == [];
    }
    var nunn := Player("Kendrick Nunn");
    var rui := Player("Rui Hachimura");
    var acc1 := Tally(map["LAL" := [nunn]], map["WAS" := [nunn]]);
    assert ts[0].asset.kind == PlayerKind && ts[1].asset.kind == PlayerKind;
    assert Materialise(ts[0]) == Ok(Some(nunn));
    assert Materialise(ts[1]) == Ok(Some(rui));
    assert Lists(map[], "LAL") == [] && [] + [nunn] == [nunn];
    assert Record(Tally(map[], map[]), ts[0]) == Ok(acc1);
    assert Lists(acc1.sent, "WAS") == [] && Lists(acc1.acquired, "LAL") == [];
    var acc2 := Tally(map["LAL" := [nunn], "WAS" := [rui]], map["WAS" := [nunn], "LAL" := [rui]]);
    assert [] + [rui] == [rui];
    assert acc1.sent["WAS" := [rui]] == acc2.sent;
    assert acc1.acquired["LAL" := [rui]] == acc2.acquired;
    assert Record(acc1, ts[1]) == Ok(acc2);
    assert Fold(acc2, ts[1..][1..]) == Ok(acc2);
    assert Fold(Tally(map[], map[]), ts) == Ok(acc2);
    assert Lists(acc2.sent, "LAL") == [nunn] && Lists(acc2.acquired, "LAL") == [rui];
    assert Lists(acc2.sent, "WAS") == [rui] && Lists(acc2.acquired, "WAS") == [nunn];
    var teams := Assemble(["LAL", "WAS"], acc2).teams;
    assert teams[0] == TeamEntry("LAL", [nunn], [rui]);
    assert teams[1] == TeamEntry("WAS", [rui], [nunn]);
    assert teams == [TeamEntry("LAL", [nunn], [rui]), TeamEntry("WAS", [rui], [nunn])];
  }

  /** The reply names the teams in full; normalisation turns them into the codes the
      swap above uses, and leaves the player alone. */
  lemma NunnNormalised()
    ensures NormalizeTransfer(Transfer("Los Angeles Lakers", "Washington Wizards", PlayerSpec("Kendrick Nunn")))
      == NunnForHachimura[0]
  {
    LakersByName();
    WizardsByName();
  }

  function PickSpec(year: string, round: int, team: string): AssetSpec {
    AssetSpec(PickKind, None, Some(year), Some(round), Some(team), None)
  }

  const CashSpec: AssetSpec := AssetSpec(CashKind, None, None, None, None, None)

  /** "Pistons traded 2025 2nd to Knicks for cash", after normalisation. */
  const PickForCash: seq<Transfer> := [
    Transfer("DET", "NYK", PickSpec("2025", 2, "DET")),
    Transfer("NYK", "DET", CashSpec)]

  lemma PickForCashAggregates()
    ensures Aggregate(PickForCash) == Ok(Trade(false, 2, [
      TeamEntry("DET", [Pick("2025", 2, "DET")], [Cash]),
      TeamEntry("NYK", [Cash], [Pick("2025", 2, "DET")])]))
  {
    var ts := PickForCash;
    assert Below("DET", "NYK");
    assert Insert(Insert([], "DET"), "NYK") == ["DET", "NYK"];
    assert Insert(Insert(["DET", "NYK"], "NYK"), "DET") == ["DET", "NYK"];
    assert !Below("NYK", "DET");
    assert Roster([], ts) == ["DET", "NYK"] by {
      assert Roster([], ts) == Roster(["DET", "NYK"], ts[1..]);
      assert ts[1..][0] == ts[1];
      assert Roster(["DET", "NYK"], ts[1..]) == Roster(["DET", "NYK"], ts[1..][1..]);
      assert ts[1..][1..] == [];
    }
    var pick := Pick("2025", 2, "DET");
    assert ts[0].asset.kind == PickKind && ts[1].asset.kind == CashKind;
    assert Materialise(ts[0]) == Ok(Some(pick));
    assert Materialise(ts[1]) == Ok(Some(Cash));
    var acc1 := Tally(map["DET" := [pick]], map["NYK" := [pick]]);
    assert Lists(map[], "DET") == [] && [] + [pick] == [pick];
    assert Record(Tally(map[], map[]), ts[0]) == Ok(acc1);
    var acc2 := Tally(map["DET" := [pick], "NYK" := [Cash]], map["NYK" := [pick], "DET" := [Cash]]);
    assert Lists(acc1.sent, "NYK") == [] && Lists(acc1.acquired, "DET") == [];
    assert [] + [Cash] == [Cash];
    assert acc1.sent["NYK" := [Cash]] == acc2.sent;
    assert acc1.acquired["DET" := [Cash]] == acc2.acquired;
    assert Record(acc1, ts[1]) == Ok(acc2);
    assert Fold(acc2, ts[1..][1..]) == Ok(acc2);
    assert Fold(Tally(map[], map[]), ts) == Ok(acc2);
    assert Lists(acc2.sent, "DET") == [pick] && Lists(acc2.acquired, "DET") == [Cash];
    assert Lists(acc2.sent, "NYK") == [Cash] && Lists(acc2.acquired, "NYK") == [pick];
    var teams := Assemble(["DET", "NYK"], acc2).teams;
    assert teams[0] == TeamEntry("DET", [pick], [Cash]);
    assert teams[1] == TeamEntry("NYK", [Cash], [pick]);
    assert teams == [TeamEntry("DET", [pick], [Cash]), TeamEntry("NYK", [Cash], [pick])];
  }

  /** "Heat traded Lakers 2026 1st to Celtics": the pick keeps its named owner, and the
      receiving team sorts first. */
  const LakersPick: seq<Transfer> := [Transfer("MIA", "BOS", PickSpec("2026", 1, "LAL"))]

  lemma LakersPickAggregates()
    ensures Aggregate(LakersPick) == Ok(Trade(false, 2, [
      TeamEntry("BOS", [], [Pick("2026", 1, "LAL")]),
      TeamEntry("MIA", [Pick("2026", 1, "LAL")], [])]))
  {
    var ts := LakersPick;
    assert Below("BOS", "MIA");
    assert Insert(Insert([], "MIA"), "BOS") == ["BOS", "MIA"];
    assert Roster([], ts) == ["BOS", "MIA"] by {
      assert ts[1..] == [];
    }
    var pick := Pick("2026", 1, "LAL");
    assert ts[0].asset.kind == PickKind;
    assert Materialise(ts[0]) == Ok(Some(pick));
    var acc := Tally(map["MIA" := [pick]], map["BOS" := [pick]]);
    assert Lists(map[], "MIA") == [] && [] + [pick] == [pick];
    assert Record(Tally(map[], map[]), ts[0]) == Ok(acc);
    assert Fold(acc, ts[1..]) == Ok(acc);
    assert Lists(acc.sent, "BOS") == [] && Lists(acc.acquired, "BOS") == [pick];
    assert Lists(acc.sent, "MIA") == [pick] && Lists(acc.acquired, "MIA") == [];
    var teams := Assemble(["BOS", "MIA"], acc).teams;
    assert teams == [TeamEntry("BOS", [], [pick]), TeamEntry("MIA", [pick], [])];
  }

  /** A transfer from a team to itself lists its asset as both sent and acquired by
      that one team. */
  lemma SelfTransfer(t: Transfer)
    requires t.fromTeam == t.toTeam && Carries(t)
    ensures Aggregate([t]) == Ok(Trade(false, 1, [TeamEntry(t.fromTeam, MovedList(t), MovedList(t))]))
  {
    var c := t.fromTeam;
    assert Insert(Insert([], c), c) == [c];
    assert Roster([], [t]) == [c] by {
      assert [t][1..] == [];
    }
    var a := MovedList(t);
    var acc := Tally(map[c := a], map[c := a]);
    assert Lists(map[], c) == [] && [] + a == a;
    assert Record(Tally(map[], map[]), t) == Ok(acc);
    assert Fold(acc, [t][1..]) == Ok(acc);
    assert Assemble([c], acc).teams == [TeamEntry(c, a, a)];
  }

  /** The year repair keeps only the first four-digit run. */
  lemma YearRewritten()
    ensures Repair(Transfer("DET", "NYK", PickSpec("2025-26", 2, "DET")))
      == Some(Transfer("DET", "NYK", PickSpec("2025", 2, "DET")))
  {
    assert FourDigitsAt("2025-26", 0);
    assert FirstFourDigits("2025-26", 0) == Some(0);
    assert "2025-26"[0..4] == "2025";
  }

  /** A pick whose year holds no four-digit run is dropped; one with no year is kept. */
  lemma YearlessPicks()
    ensures Repair(Transfer("DET", "NYK", PickSpec("next year", 2, "DET"))).None?
    ensures Repair(Transfer("DET", "NYK", AssetSpec(PickKind, None, None, Some(2), None, None))).Some?
  {
    assert FirstFourDigits("next year", 0).None?;
  }

  /** The `draft_pick` synonym never reaches the repair pass: validation rejects it. */
  lemma DraftPickRejected()
    ensures Validate([Transfer("DET", "NYK", AssetSpec("draft_pick", None, Some("2025"), Some(2), None, None))])
      == Err(SchemaViolation)
  {
    var xs := [Transfer("DET", "NYK", AssetSpec("draft_pick", None, Some("2025"), Some(2), None, None))];
    assert xs[0].asset.kind != PlayerKind && xs[0].asset.kind != PickKind && xs[0].asset.kind != CashKind;
    assert !SchemaValid(xs[0]);
  }
}

=== FILE: string_order.dfy ===
/**
 * Python's ordering of `str` values: lexicographic by code point, a proper prefix
 * first. `sorted(team_names)` at line 308 of trade_graph_builder.py orders the team
 * entries by it.
 */
module StringOrder {

  /** `a < b` on Python strings. */
  predicate Below(a: string, b: string)
    decreases |a|
  {
    if a == [] then b != []
    else if b == [] then false
    else if a[0] != b[0] then a[0] < b[0]
    else Below(a[1..], b[1..])
  }

  lemma {:induction false} BelowIrreflexive(a: string)
    ensures !Below(a, a)
    decreases |a|
  {
    if a != [] {
      BelowIrreflexive(a[1..]);
    }
  }

  lemma {:induction false} BelowTransitive(a: string, b: string, c: string)
    requires Below(a, b) && Below(b, c)
    ensures Below(a, c)
    decreases |a|
  {
    if a != [] && a[0] == b[0] && b[0] == c[0] {
      BelowTransitive(a[1..], b[1..], c[1..]);
    }
  }

  /** Two different strings are always ordered one way or the other. */
  lemma {:induction false} BelowTotal(a: string, b: string)
    requires a != b
    ensures Below(a, b) || Below(b, a)
    decreases |a|
  {
    if a != [] && b != [] && a[0] == b[0] {
      assert a == [a[0]] + a[1..] && b == [b[0]] + b[1..];
      BelowTotal(a[1..], b[1..]);
    }
  }

  lemma {:induction false} BelowAsymmetric(a: string, b: string)
    requires Below(a, b)
    ensures !Below(b, a)
    decreases |a|
  {
    if a != [] && a[0] == b[0] {
      BelowAsymmetric(a[1..], b[1..]);
    }
  }

  /** Strictly ascending, hence duplicate-free. */
  predicate StrictlySorted(s: seq<string>) {
    forall i, j :: 0 <= i < j < |s| ==> Below(s[i], s[j])
  }

  /** Adds `x` to a strictly ascending list, keeping it strictly ascending: the list form
      of building a set and sorting it. */
  function Insert(s: seq<string>, x: string): (r: seq<string>)
    requires StrictlySorted(s)
    ensures StrictlySorted(r)
    ensures forall y :: y in r <==> y in s || y == x
    ensures |r| == if x in s then |s| else |s| + 1
    decreases |s|
  {
    if s == [] then [x]
    else if s[0] == x then s
    else if Below(x, s[0]) then
      forall j | 0 <= j < |s| ensures Below(x, s[j]) {
        if j > 0 { BelowTransitive(x, s[0], s[j]); }
      }
      assert x !in s by {
        if x in s {
          var j :| 0 <= j < |s| && s[j] == x;
          BelowIrreflexive(x);
        }
      }
      [x] + s
    else
      BelowTotal(x, s[0]);
      var rest := Insert(s[1..], x);
      assert forall y :: y in s <==> y == s[0] || y in s[1..];
      forall j | 0 <= j < |rest| ensures Below(s[0], rest[j]) {
        assert rest[j] in s[1..] || rest[j] == x;
      }
      [s[0]] + rest
  }

  /** A strictly sorted list holds each of its elements exactly once. */
  lemma SortedUnique(s: seq<string>, i: int, j: int)
    requires StrictlySorted(s)
    requires 0 <= i < |s| && 0 <= j < |s| && s[i] == s[j]
    ensures i == j
  {
    if i < j {
      BelowIrreflexive(s[i]);
    } else if j < i {
      BelowIrreflexive(s[j]);
    }
  }

  /** The head of a strictly sorted list is below every other element. */
  lemma HeadIsLeast(s: seq<string>, y: string)
    requires StrictlySorted(s) && y in s && s != [] && y != s[0]
    ensures Below(s[0], y)
  {
  }

  lemma HeadIsMember(s: seq<string>)
    requires s != []
    ensures s[0] in s
  {
  }

  /** Two strictly sorted lists with the same elements are the same list, so the team
      order depends only on which teams take part. */
  lemma {:induction false} SortedUniqueList(s: seq<string>, t: seq<string>)
    requires StrictlySorted(s) && StrictlySorted(t)
    requires forall y :: y in s <==> y in t
    ensures s == t
    decreases |s|
  {
    if s == [] {
      if t != [] {
        HeadIsMember(t);
        assert false;
      }
    } else if t == [] {
      HeadIsMember(s);
      assert false;
    } else {
      HeadIsMember(s);
      HeadIsMember(t);
      if s[0] != t[0] {
        HeadIsLeast(t, s[0]);
        HeadIsLeast(s, t[0]);
        BelowAsymmetric(s[0], t[0]);
        assert false;
      }
      forall y ensures y in s[1..] <==> y in t[1..] {
        if y in s[1..] {
          var k :| 1 <= k < |s| && s[k] == y;
          BelowIrreflexive(s[0]);
          assert y != s[0] && y in t;
          var m :| 0 <= m < |t| && t[m] == y;
          assert t[1..][m - 1] == y;
        }
        if y in t[1..] {
          var k :| 1 <= k < |t| && t[k] == y;
          BelowIrreflexive(t[0]);
          assert y != t[0] && y in s;
          var m :| 0 <= m < |s| && s[m] == y;
          assert s[1..][m - 1] == y;
        }
      }
      SortedUniqueList(s[1..], t[1..]);
      assert s == [s[0]] + s[1..] && t == [t[0]] + t[1..];
    }
  }
}

=== FILE: strings.dfy ===
/**
 * ASCII string primitives with the meaning Python's `str` methods give them:
 * `isspace`, `lower`, `upper`, `strip`, `rstrip('.')`, `split(sep)` and
 * `sep.join(parts)`.
 */
module Strings {

  /** The ASCII characters for which Python's `str.isspace` holds: tab through
      carriage return, the four information separators, and the space. */
  predicate IsSpace(c: char) {
    c == ' ' || (9 <= c as int <= 13) || (28 <= c as int <= 31)
  }

  /** ASCII word characters, the ones a regular expression's `\w` and `\b` see. */
  predicate IsWordChar(c: char) {
    ('a' <= c <= 'z') || ('A' <= c <= 'Z') || ('0' <= c <= '9') || c == '_'
  }

  predicate IsDigit(c: char) {
    '0' <= c <= '9'
  }

  predicate IsLowerLetter(c: char) {
    'a' <= c <= 'z'
  }

  function LowerChar(c: char): char {
    if 'A' <= c <= 'Z' then (c as int + 32) as char else c
  }

  function UpperChar(c: char): char {
    if 'a' <= c <= 'z' then (c as int - 32) as char else c
  }

  function Lower(s: string): (r: string)
    ensures |r| == |s|
  {
    seq(|s|, i requires 0 <= i < |s| => LowerChar(s[i]))
  }

  function Upper(s: string): (r: string)
    ensures |r| == |s|
  {
    seq(|s|, i requires 0 <= i < |s| => UpperChar(s[i]))
  }

  function Min(a: int, b: int): int {
    if a <= b then a else b
  }

  /** Index of the first character of `s` that is not whitespace (|s| if none). */
  function StripLo(s: string): (i: nat)
    ensures i <= |s|
    ensures forall k :: 0 <= k < i ==> IsSpace(s[k])
    ensures i < |s| ==> !IsSpace(s[i])
    decreases |s|
  {
    if s == [] || !IsSpace(s[0]) then 0 else 1 + StripLo(s[1..])
  }

  /** Walking back from `j`, the end of `s` once trailing whitespace down to `lo` is dropped. */
  function SpaceEnd(s: string, lo: nat, j: nat): (e: nat)
    requires lo <= j <= |s|
    ensures lo <= e <= j
    ensures forall k :: e <= k < j ==> IsSpace(s[k])
    ensures e > lo ==> !IsSpace(s[e - 1])
    decreases j
  {
    if j > lo && IsSpace(s[j - 1]) then SpaceEnd(s, lo, j - 1) else j
  }

  function StripHi(s: string): (j: nat)
    ensures StripLo(s) <= j <= |s|
  {
    SpaceEnd(s, StripLo(s), |s|)
  }

  /** Python's `s.strip()`. */
  function Strip(s: string): string {
    s[StripLo(s)..StripHi(s)]
  }

  /** Walking back from `j`, the end of `s` once trailing periods are dropped. */
  function DotEnd(s: string, j: nat): (e: nat)
    requires j <= |s|
    ensures e <= j
    ensures forall k :: e <= k < j ==> s[k] == '.'
    ensures e > 0 ==> s[e - 1] != '.'
    decreases j
  {
    if j > 0 && s[j - 1] == '.' then DotEnd(s, j - 1) else j
  }

  /** Python's `s.rstrip('.')`. */
  function RStripDots(s: string): string {
    s[..DotEnd(s, |s|)]
  }

  /** Python's `s.split(d)` for a one-character separator. */
  function Split(s: string, d: char): (parts: seq<string>)
    ensures parts != []
    ensures forall k :: 0 <= k < |parts| ==> d !in parts[k]
    decreases |s|
  {
    if s == [] then [[]]
    else
      assert s == [s[0]] + s[1..];
      var rest := Split(s[1..], d);
      if s[0] == d then [[]] + rest
      else [[s[0]] + rest[0]] + rest[1..]
  }

  /** There is one part more than there are separators. */
  lemma {:induction false} SplitCount(s: string, d: char)
    ensures |Split(s, d)| == multiset(s)[d] + 1
    decreases |s|
  {
    if s != [] {
      SplitCount(s[1..], d);
      assert s == [s[0]] + s[1..];
    }
  }

  /** Python's `sep.join(parts)`. */
  function Join(parts: seq<string>, sep: string): string
    decreases |parts|
  {
    if parts == [] then []
    else if |parts| == 1 then parts[0]
    else parts[0] + sep + Join(parts[1..], sep)
  }

  /** Python's `p in s` for strings: `p` occurs contiguously in `s`. */
  predicate IsInfix(p: string, s: string) {
    exists i | 0 <= i <= |s| - |p| :: OccursAt(p, s, i)
  }

  predicate OccursAt(p: string, s: string, i: int) {
    0 <= i <= |s| - |p| && s[i..i + |p|] == p
  }

  lemma JoinCons(x: string, xs: seq<string>, sep: string)
    ensures Join([x] + xs, sep) == if xs == [] then x else x + sep + Join(xs, sep)
  {
    assert ([x] + xs)[1..] == xs;
  }

  lemma {:induction false} SplitJoin(s: string, d: char)
    ensures Join(Split(s, d), [d]) == s
    decreases |s|
  {
    if s != [] {
      SplitJoin(s[1..], d);
      if s[0] == d {
        SplitJoinAtSeparator(s, d);
      } else {
        SplitJoinInsidePart(s, d);
      }
    }
  }

  lemma SplitJoinAtSeparator(s: string, d: char)
    requires s != [] && s[0] == d
    requires Join(Split(s[1..], d), [d]) == s[1..]
    ensures Join(Split(s, d), [d]) == s
  {
    var rest := Split(s[1..], d);
    assert Split(s, d) == [[]] + rest;
    assert rest != [];
    JoinCons([], rest, [d]);
    var j := Join(rest, [d]);
    assert Join(Split(s, d), [d]) == [] + [d] + j;
    assert [] + [d] + j == [d] + s[1..];
  }

  lemma SplitJoinInsidePart(s: string, d: char)
    requires s != [] && s[0] != d
    requires Join(Split(s[1..], d), [d]) == s[1..]
    ensures Join(Split(s, d), [d]) == s
  {
    var rest := Split(s[1..], d);
    var r0, tl := rest[0], rest[1..];
    assert Split(s, d) == [[s[0]] + r0] + tl;
    JoinExtendHead(s[0], r0, tl, [d]);
    assert rest == [r0] + tl;
    assert s == [s[0]] + s[1..];
  }

  /** Prepending a character to the first part prepends it to the joined string. */
  lemma JoinExtendHead(c: char, x: string, xs: seq<string>, sep: string)
    ensures Join([[c] + x] + xs, sep) == [c] + Join([x] + xs, sep)
  {
    JoinCons(x, xs, sep);
    JoinCons([c] + x, xs, sep);
  }

  lemma LowerCharKeepsWord(c: char)
    ensures IsWordChar(LowerChar(c)) == IsWordChar(c)
  {
  }

  /** A string without the separator splits into itself alone. */
  lemma SplitWithout(s: string, d: char)
    requires d !in s
    ensures Split(s, d) == [s]
  {
    SplitJoin(s, d);
    SplitCount(s, d);
    assert multiset(s)[d] == 0;
  }

  /** The part before the first separator comes out first, the rest is split on. */
  lemma {:induction false} SplitAround(a: string, b: string, d: char)
    requires d !in a
    ensures Split(a + [d] + b, d) == [a] + Split(b, d)
    decreases |a|
  {
    var s := a + [d] + b;
    if a == [] {
      assert s == [d] + b;
      assert s[1..] == b;
    } else {
      assert s[1..] == a[1..] + [d] + b;
      SplitAround(a[1..], b, d);
      assert [a[0]] + a[1..] == a;
    }
  }

  /** A string that neither starts nor ends with whitespace is its own strip. */
  lemma StripKeeps(s: string)
    requires s != [] && !IsSpace(s[0]) && !IsSpace(s[|s| - 1])
    ensures Strip(s) == s
  {
  }
}

=== FILE: team_names.dfy ===
/**
 * `normalize_team_name` (trade_graph_builder.py): franchise names, current
 * and historical, are filed under fixed three-letter codes; anything else
 * falls back to the first three characters of the upper-cased name.
 */
module TeamNames {
  import opened Results
  import opened Strings

  /** The static table of lines 228-266 (`mapping.get(key)`). Its 36 keys are pairwise
      distinct, so trying the entries in any order gives the dictionary's answer; they
      are listed here by division only so that each group can be checked on its own. */
  function TableCode(key: string): (r: Option<string>)
    ensures r.Some? ==> |key| > 3 && |r.value| == 3 && IsCode(r.value)
  {
    if Atlantic(key).Some? then Atlantic(key)
    else if Central(key).Some? then Central(key)
    else if Southeast(key).Some? then Southeast(key)
    else if Northwest(key).Some? then Northwest(key)
    else if Pacific(key).Some? then Pacific(key)
    else if Southwest(key).Some? then Southwest(key)
    else None
  }

  function Atlantic(key: string): (r: Option<string>)
    ensures r.Some? ==> |key| > 3 && |r.value| == 3 && IsCode(r.value)
  {
    if key == "boston celtics" then Some("BOS")
    else if key == "brooklyn nets" then Some("BKN")
    else if key == "new jersey nets" then Some("BKN")
    else if key == "new york knicks" then Some("NYK")
    else if key == "philadelphia 76ers" then Some("PHI")
    else if key == "toronto raptors" then Some("TOR")
    else None
  }

  function Central(key: string): (r: Option<string>)
    ensures r.Some? ==> |key| > 3 && |r.value| == 3 && IsCode(r.value)
  {
    if key == "chicago bulls" then Some("CHI")
    else if key == "cleveland cavaliers" then Some("CLE")
    else if key == "detroit pistons" then Some("DET")
    else if key == "indiana pacers" then Some("IND")
    else if key == "milwaukee bucks" then Some("MIL")
    else None
  }

  function Southeast(key: string): (r: Option<string>)
    ensures r.Some? ==> |key| > 3 && |r.value| == 3 && IsCode(r.value)
  {
    if key == "atlanta hawks" then Some("ATL")
    else if key == "charlotte hornets" then Some("CHA")
    else if key == "charlotte bobcats" then Some("CHA")
    else if key == "miami heat" then Some("MIA")
    else if key == "orlando magic" then Some("ORL")
    else if key == "washington wizards" then Some("WAS")
    else if key == "washington bullets" then Some("WAS")
    else None
  }

  function Northwest(key: string): (r: Option<string>)
    ensures r.Some? ==> |key| > 3 && |r.value| == 3 && IsCode(r.value)
  {
    if key == "denver nuggets" then Some("DEN")
    else if key == "minnesota timberwolves" then Some("MIN")
    else if key == "oklahoma city thunder" then Some("OKC")
    else if key == "seattle supersonics" then Some("OKC")
    else if key == "portland trail blazers" then Some("POR")
    else if key == "utah jazz" then Some("UTA")
    else None
  }

  function Pacific(key: string): (r: Option<string>)
    ensures r.Some? ==> |key| > 3 && |r.value| == 3 && IsCode(r.value)
  {
    if key == "golden state warriors" then Some("GSW")
    else if key == "los angeles clippers" then Some("LAC")
    else if key == "los angeles lakers" then Some("LAL")
    else if key == "phoenix suns" then Some("PHX")
    else if key == "sacramento kings" then Some("SAC")
    else None
  }

  function Southwest(key: string): (r: Option<string>)
    ensures r.Some? ==> |key| > 3 && |r.value| == 3 && IsCode(r.value)
  {
    if key == "dallas mavericks" then Some("DAL")
    else if key == "houston rockets" then Some("HOU")
    else if key == "memphis grizzlies" then Some("MEM")
    else if key == "new orleans pelicans" then Some("NOP")
    else if key == "new orleans hornets" then Some("NOP")
    else if key == "new orleans/oklahoma city hornets" then Some("NOP")
    else if key == "san antonio spurs" then Some("SAS")
    else None
  }

  /** A code the normaliser can return: at most three characters, none of them a
      lower-case letter. */
  predicate IsCode(c: string) {
    && |c| <= 3
    && (|c| > 0 ==> !IsLowerLetter(c[0]))
    && (|c| > 1 ==> !IsLowerLetter(c[1]))
    && (|c| > 2 ==> !IsLowerLetter(c[2]))
  }

  /** The lookup key of line 268: lower-cased, then trimmed. Lower-casing leaves
      whitespace alone, so the model may strip first. */
  function Key(name: string): string {
    Lower(Strip(name))
  }

  /** The fallback of line 269: upper-cased raw input, first three characters. */
  function Fallback(name: string): string {
    Upper(name)[..Min(3, |name|)]
  }

  function Normalize(name: string): (code: string)
    ensures IsCode(code)
    ensures code == [] <==> name == []
  {
    match TableCode(Key(name))
    case Some(code) => code
    case None => Fallback(name)
  }

  /** On a table hit the result is the table's code; otherwise it is the first three
      characters (or all, if fewer) of the upper-cased raw name. */
  lemma NormalizeCases(name: string)
    ensures TableCode(Key(name)).Some? ==> Normalize(name) == TableCode(Key(name)).value && |Normalize(name)| == 3
    ensures TableCode(Key(name)).None? ==>
      |Normalize(name)| == Min(3, |name|) &&
      forall i :: 0 <= i < |Normalize(name)| ==> Normalize(name)[i] == UpperChar(name[i])
  {
  }

  /** A code is its own normal form. */
  lemma CodeIsFixpoint(c: string)
    requires IsCode(c)
    ensures Normalize(c) == c
  {
    assert |Key(c)| <= 3;
    assert Fallback(c) == c;
  }

  /** Normalising twice is the same as normalising once. */
  lemma NormalizeIdempotent(name: string)
    ensures Normalize(Normalize(name)) == Normalize(name)
  {
    CodeIsFixpoint(Normalize(name));
  }

  lemma SeattleEntry()
    ensures TableCode("seattle supersonics") == Some("OKC")
  {
  }

  lemma NewJerseyEntry()
    ensures TableCode("new jersey nets") == Some("BKN")
  {
  }

  lemma HornetsInterimEntry()
    ensures TableCode("new orleans/oklahoma city hornets") == Some("NOP")
  {
  }

  lemma LakersEntry()
    ensures TableCode("los angeles lakers") == Some("LAL")
  {
  }

  lemma WizardsEntry()
    ensures TableCode("washington wizards") == Some("WAS")
  {
  }

  /** The full names a reply usually carries land on their codes. */
  lemma LakersKey()
    ensures Key("Los Angeles Lakers") == "los angeles lakers"
  {
    var s := "Los Angeles Lakers";
    var k := "los angeles lakers";
    StripKeeps(s);
    forall i | 0 <= i < |s| ensures Lower(s)[i] == k[i] {
    }
  }

  lemma LakersByName()
    ensures Normalize("Los Angeles Lakers") == "LAL"
  {
    LakersEntry();
    LakersKey();
    NormalizeCases("Los Angeles Lakers");
  }

  lemma WizardsKey()
    ensures Key("Washington Wizards") == "washington wizards"
  {
    var s := "Washington Wizards";
    var k := "washington wizards";
    StripKeeps(s);
    forall i | 0 <= i < |s| ensures Lower(s)[i] == k[i] {
    }
  }

  lemma WizardsByName()
    ensures Normalize("Washington Wizards") == "WAS"
  {
    WizardsEntry();
    WizardsKey();
    NormalizeCases("Washington Wizards");
  }

  /** A relocated franchise lands on its current code, whatever the spacing and case
      around the old name: the SuperSonics on OKC. */
  lemma SeattleIsOklahomaCity(name: string)
    requires Key(name) == "seattle supersonics"
    ensures Normalize(name) == "OKC"
  {
    SeattleEntry();
    NormalizeCases(name);
  }

  /** The New Jersey Nets land on BKN. */
  lemma NewJerseyIsBrooklyn(name: string)
    requires Key(name) == "new jersey nets"
    ensures Normalize(name) == "BKN"
  {
    NewJerseyEntry();
    NormalizeCases(name);
  }

  /** The franchise's interim name while displaced lands on NOP. */
  lemma HornetsInterimIsNewOrleans(name: string)
    requires Key(name) == "new orleans/oklahoma city hornets"
    ensures Normalize(name) == "NOP"
  {
    HornetsInterimEntry();
    NormalizeCases(name);
  }
}

=== FILE: trade_types.dfy ===
/**
 * The records of trade_graph_builder.py: the loosely typed asset and transfer
 * the extraction service returns (`Asset`, `SimpleTransfer`), and the
 * aggregated trade (`Player | Pick | Cash`, `Team`, `Trade`).
 */
module TradeTypes {
  import opened Results

  const PlayerKind: string := "player"
  const PickKind: string := "pick"
  const CashKind: string := "cash"

  /** The three values the `Literal` of line 32 admits. */
  predicate IsAssetKind(kind: string) {
    kind == PlayerKind || kind == PickKind || kind == CashKind
  }

  /** `Asset` (lines 31-37): every field but the kind may be absent. The kind is kept
      as a string, so that values outside the `Literal` can be stated and rejected. */
  datatype AssetSpec = AssetSpec(
    kind: string,
    name: Option<string>,
    year: Option<string>,
    round: Option<int>,
    team: Option<string>,
    amount: Option<string>)

  /** `SimpleTransfer` (lines 39-43): one asset moving from one team to another. */
  datatype Transfer = Transfer(fromTeam: string, toTeam: string, asset: AssetSpec)

  /** The aggregated assets (lines 48-59). `Cash` has no amount field, so the amount
      handed to it at line 289 is not kept. */
  datatype Asset = Player(name: string) | Pick(year: string, round: int, team: string) | Cash

  /** `Team` (lines 61-64). */
  datatype TeamEntry = TeamEntry(team: string, sent: seq<Asset>, acquired: seq<Asset>)

  /** `Trade` (lines 66-69). */
  datatype Trade = Trade(isMultiTeam: bool, numTeams: int, teams: seq<TeamEntry>)

  /** Python truthiness of an optional string: present and non-empty. */
  predicate Truthy(o: Option<string>) {
    o.Some? && o.value != []
  }
}

=== FILE: words.dfy ===
/**
 * Case-insensitive literal search with ASCII word boundaries: the behaviour
 * of `re.search(pattern, s, flags=re.IGNORECASE)` for the literal patterns
 * the clause preprocessor uses, optionally framed by `\b`.
 */
module Words {
  import opened Results
  import opened Strings

  /** The (lower-case) literal `p` occurs at `i`, ignoring the case of `s`. */
  predicate MatchesAt(s: string, p: string, i: int) {
    0 <= i && i + |p| <= |s| && forall k :: 0 <= k < |p| ==> LowerChar(s[i + k]) == p[k]
  }

  /** `\b` before a word character at `i`. */
  predicate StartsWord(s: string, i: int)
    requires 0 <= i <= |s|
  {
    i == 0 || !IsWordChar(s[i - 1])
  }

  /** `\b` after a word character ending at `j`. */
  predicate EndsWord(s: string, j: int)
    requires 0 <= j <= |s|
  {
    j == |s| || !IsWordChar(s[j])
  }

  /** A match of `p` at `i` with a trailing `\b`, and a leading one when `framed`. */
  predicate HitAt(s: string, p: string, framed: bool, i: int) {
    MatchesAt(s, p, i) && (framed ==> StartsWord(s, i)) && EndsWord(s, i + |p|)
  }

  /** Patterns of the form `\bword\b`: lower case, beginning and ending with a word character. */
  predicate WordPattern(p: string) {
    && |p| > 0
    && IsWordChar(p[0])
    && IsWordChar(p[|p| - 1])
    && forall k :: 0 <= k < |p| ==> LowerChar(p[k]) == p[k]
  }

  /** `s` contains no word-bounded, case-insensitive occurrence of `p`. */
  ghost predicate FreeOf(s: string, p: string) {
    forall i :: !HitAt(s, p, true, i)
  }

  /** Leftmost hit at or after `from`, as `re.search` reports it. */
  function Find(s: string, p: string, framed: bool, from: nat): (r: Option<nat>)
    requires from <= |s| + 1
    ensures r.Some? ==> from <= r.value <= |s| && HitAt(s, p, framed, r.value)
    ensures r.Some? ==> forall i :: from <= i < r.value ==> !HitAt(s, p, framed, i)
    ensures r.None? ==> forall i :: from <= i ==> !HitAt(s, p, framed, i)
    decreases |s| + 1 - from
  {
    if from > |s| then None
    else if HitAt(s, p, framed, from) then Some(from)
    else Find(s, p, framed, from + 1)
  }

  /** A position that does not split a run of word characters. */
  predicate Cuttable(s: string, k: int)
    requires 0 <= k <= |s|
  {
    k == 0 || k == |s| || !IsWordChar(s[k - 1]) || !IsWordChar(s[k])
  }

  /** Searching from the start finds nothing exactly when the text is free of the word. */
  lemma FindNoneIsFree(s: string, p: string)
    ensures Find(s, p, true, 0).None? <==> FreeOf(s, p)
  {
  }

  lemma MatchedChar(s: string, p: string, i: int, k: int)
    requires MatchesAt(s, p, i) && 0 <= k < |p|
    ensures LowerChar(s[i + k]) == p[k]
  {
  }

  /** A hit inside a slice cut at word-safe positions is a hit in the whole string. */
  lemma HitFromSlice(s: string, p: string, i: int, j: int, m: int)
    requires WordPattern(p)
    requires 0 <= i <= j <= |s| && Cuttable(s, i) && Cuttable(s, j)
    requires HitAt(s[i..j], p, true, m)
    ensures HitAt(s, p, true, i + m)
  {
    var t := s[i..j];
    assert forall q :: m <= q < m + |p| ==> t[q] == s[i + q];
    LowerCharKeepsWord(s[i + m]);
    assert LowerChar(t[m]) == p[0];
    if m == 0 && i > 0 && i < |s| {
      assert IsWordChar(s[i]);
    }
    var e := m + |p|;
    LowerCharKeepsWord(t[e - 1]);
    assert LowerChar(t[e - 1]) == p[|p| - 1];
    if e == |t| && j > 0 && j < |s| {
      assert IsWordChar(s[j - 1]);
    }
  }

  /** A hit lying wholly inside a slice is still a hit in the slice. */
  lemma HitToSlice(s: string, p: string, i: int, j: int, m: int)
    requires 0 <= i <= j <= |s|
    requires HitAt(s, p, true, m) && i <= m && m + |p| <= j
    ensures HitAt(s[i..j], p, true, m - i)
  {
    var t := s[i..j];
    assert forall q :: m - i <= q < m - i + |p| ==> t[q] == s[i + q];
  }

  /** Cutting a word-free string at word-safe positions leaves it word-free. */
  lemma FreeOfSlice(s: string, p: string, i: int, j: int)
    requires WordPattern(p) && FreeOf(s, p)
    requires 0 <= i <= j <= |s| && Cuttable(s, i) && Cuttable(s, j)
    ensures FreeOf(s[i..j], p)
  {
    forall m | HitAt(s[i..j], p, true, m)
      ensures false
    {
      HitFromSlice(s, p, i, j, m);
    }
  }

  /** Everything before the first word-bounded hit is free of the word. */
  lemma FreeBeforeFirst(s: string, p: string)
    requires WordPattern(p) && Find(s, p, true, 0).Some?
    ensures FreeOf(s[..Find(s, p, true, 0).value], p)
  {
    var cs := Find(s, p, true, 0).value;
    forall m | HitAt(s[0..cs], p, true, m)
      ensures false
    {
      HitFromSlice(s, p, 0, cs, m);
    }
    assert s[..cs] == s[0..cs];
  }

  /** Stripping whitespace cannot create a word-bounded occurrence. */
  lemma FreeOfStrip(s: string, p: string)
    requires WordPattern(p) && FreeOf(s, p)
    ensures FreeOf(Strip(s), p)
  {
    FreeOfSlice(s, p, StripLo(s), StripHi(s));
  }

  /** Joining word-free sentences with ". " creates no occurrence across a seam. */
  lemma {:induction false} FreeOfJoin(xs: seq<string>, p: string)
    requires WordPattern(p) && forall k :: 0 <= k < |p| ==> p[k] != '.'
    requires forall k :: 0 <= k < |xs| ==> FreeOf(xs[k], p)
    ensures FreeOf(Join(xs, ". "), p)
    decreases |xs|
  {
    if |xs| > 1 {
      FreeOfJoin(xs[1..], p);
      FreeOfSeam(xs[0], Join(xs[1..], ". "), p);
    }
  }

  lemma FreeOfSeam(x: string, y: string, p: string)
    requires WordPattern(p) && forall k :: 0 <= k < |p| ==> p[k] != '.'
    requires FreeOf(x, p) && FreeOf(y, p)
    ensures FreeOf(x + ". " + y, p)
  {
    var t := x + ". " + y;
    var n := |x|;
    assert t[n] == '.' && t[n + 1] == ' ';
    assert t[0..n] == x && t[n + 2..|t|] == y;
    forall m | HitAt(t, p, true, m)
      ensures false
    {
      if m + |p| <= n {
        HitToSlice(t, p, 0, n, m);
      } else if m <= n {
        MatchedChar(t, p, m, n - m);
      } else if m == n + 1 {
        MatchedChar(t, p, m, 0);
      } else {
        HitToSlice(t, p, n + 2, |t|, m);
      }
    }
  }
}
